=== FILE: README.md ===
# Spur-gear inspection dashboard: chart aggregation

This project models the client-side aggregation of a spur-gear inspection
dashboard. The front end turns a flat list of inspection records into charts
and statistics. Each record has a PASS/FAIL `Status`, an `inspection_date`, a
`batch_id`, an optional `batch_time` slot and an optional `module`.

The model covers five places:

- **Count chart** (`GearBarChart.jsx`).
  - `getGroupKey` picks a granularity from the day span of the selected range: batch, day, month or year.
  - `generateBuckets` seeds an ordered table of empty buckets. It seeds the eight batch slots, or one bucket per day, month or year of the range.
  - The `chartData` fold counts in-range records into those buckets: FAIL into `Defective`, PASS into `Non_defective`.
  - An unknown batch slot is counted under "Others". A missing bucket is appended.
- **Rate chart** (`GearDefectiveRateLineChart.jsx`).
  - It uses the same `getGroupKey`. That function is identical in both chart files, so it is modelled once, as `Granularity.GroupKeyOf`.
  - Its own bucket builder has no batch branch.
  - Its fold never creates a bucket. It counts every status into `total` and FAIL into `fail`.
  - It derives the rate with a zero guard.
  - It is modelled separately from the count chart, because their differences are observable.
- **Pie chart** (`GearPieChart.jsx`): an inclusive day-range selection, the OK/Defective totals, the rounded percentage and the two slices.
- **Analysis page** (`GearAnalysis.jsx`):
  - the optional batch/module/date filter chain;
  - the per-day and per-module PASS/FAIL tallies;
  - the defect rate;
  - the de-duplicated module list.
- **Dashboard** (`Dashboard.jsx`):
  - the statistics computed from the fetched list, including the latest inspection time;
  - how the page settles after the request;
  - the "latest gear" panel.

Modelling choices:

- **Time.**
  - Timestamps are integers: milliseconds on the local clock.
  - A calendar day is `DayOf(t) = t / 86400000`, and range dates are day numbers.
  - `new Date(0)` and `new Date("YYYY-MM-DD")` are read against a `utcOffset` parameter.
  - That offset is one constant for every date. A local offset that changes with daylight saving between two dates is not captured.
- **Calendar.**
  - The local calendar is a parameter `Calendar(monthOf)` that gives each day's month number (`12 * year + month - 1`).
  - The year is derived from the month.
  - Properties that depend on months following days in order assume `cal.Monotone()`.
- **Labels.**
  - A label is a batch slot name, or a (unit, period number) pair.
  - The source's formatted strings ("MMM DD", "MMM YYYY", "YYYY", "DD/MM/YYYY") are replaced by these injective labels.
  - "MMM DD" omits the year, but the source only uses it within a range of at most 32 days. There it never collides.
- **Tables.**
  - The JavaScript objects keyed by label become insertion-ordered sequences of rows.
  - The count chart and the two analysis tallies share one PASS/FAIL tally fold: `Tally.Fold`, computed in place by the loop in `Tally.Accumulate`. The rate chart has its own.
- **Rounding.**
  - Rates and percentages are whole numbers of hundredths (rate chart), units (pie chart) or tenths (analysis page) of a percent.
  - They are rounded half up on the exact ratio (`Rounding.RoundHalfUp`).
- **Inverted ranges and range tests.**
  - When the end date precedes the start, the `diff` in `getGroupKey` is negative and passes `days <= 31` (GearBarChart.jsx:29), so the key is "day".
  - Every chart then comes out empty.
  - The date pickers do not offer such a range: each start input's `max` is the end date and each end input's `min` is the start date (GearBarChart.jsx:164, 174; GearDefectiveRateLineChart.jsx:156, 166; GearPieChart.jsx:89, 99).
  - dayjs's `isBetween` accepts its two bounds in either order, and the rate chart's range test is modelled that way.

## Model

| member | source | states |
|---|---|---|
| Records.DayWindow | src/components/GearBarChart.jsx:97-102 | an instant lies between the first millisecond of day s and the last of day e exactly when its day lies in s..e |
| Records.DayWindows | src/components/GearPieChart.jsx:37-44 | the same for every instant at once |
| Granularity.GroupKeyOf | src/components/GearBarChart.jsx:26-32 | batch exactly for a zero span, day for 1..31 days or a negative span, month for 32..365, year beyond 365 |
| Granularity.Run | src/components/GearBarChart.jsx:44-64 | one label per period from lo to hi, none when hi < lo |
| Granularity.RunMembers | src/components/GearBarChart.jsx:44-64 | a run names each period once, names exactly the periods lo..hi, and never a batch slot |
| Tally.ZeroRows | src/components/GearBarChart.jsx:38-65 | one empty row per label, in the labels' order |
| Tally.Find | src/components/GearBarChart.jsx:117 | the position of the row with the key, or none exactly when no row has it |
| Tally.Tick | src/components/GearBarChart.jsx:121-125 | FAIL adds one to fail, PASS one to pass, any other status nothing; the key is kept |
| Tally.Accumulate | src/components/GearBarChart.jsx:100-126 | the in-place loop over the records ends with the table `Tally.Fold` gives |
| Tally.Bump | src/components/GearBarChart.jsx:117-125 | counting a record keeps every key and appends its key when new, leaves every other key's row unchanged, and raises the FAIL or PASS total by one according to its status |
| Tally.Fold | src/components/GearBarChart.jsx:100-126 | the table's length grows by at most one per record; its keys and counts are stated by FoldKeys, FoldSums and FoldRowCounts |
| Tally.FoldKeys | src/components/GearBarChart.jsx:100-126 | the fold keeps the starting rows in order, only appends keys of counted records, never repeats a key |
| Tally.FoldSums | src/components/GearBarChart.jsx:100-126 | the pass and fail totals grow by exactly the counted PASS and FAIL records |
| Tally.FoldNoNewKeys | src/components/GearBarChart.jsx:117-119 | when every counted key is already present the fold adds no row |
| Tally.FoldRowCounts | src/components/GearBarChart.jsx:100-126 | each row ends with its start counts plus exactly the PASS/FAIL records filed under its key |
| BarChart.SlotLabels | src/components/GearBarChart.jsx:14-23 | the eight fixed slot labels in their listed order |
| BarChart.GenerateBuckets | src/components/GearBarChart.jsx:35-68 | the loops seed one empty bucket per seeded label, in order |
| BarChart.ChartData | src/components/GearBarChart.jsx:93-129 | the chart is the fold of the records into the seeded buckets |
| BarChart.SlotsDistinct | src/components/GearBarChart.jsx:14-23 | the fixed slots are distinct |
| BarChart.BatchSeeds | src/components/GearBarChart.jsx:40-43 | batch mode seeds the 8 slots in listed order, "Others" last, all distinct |
| BarChart.DaySeeds | src/components/GearBarChart.jsx:44-50 | day mode seeds span+1 distinct days, exactly the days of the range, none for an inverted range |
| BarChart.MonthSeeds | src/components/GearBarChart.jsx:51-57 | month mode seeds every month from the start's month (even mid-month) through the end's, once each |
| BarChart.YearSeeds | src/components/GearBarChart.jsx:58-64 | year mode seeds every year from the start's through the end's, once each |
| BarChart.SeedsEmptyAndDistinct | src/components/GearBarChart.jsx:38-65 | every seeded bucket starts at zero and no label is seeded twice |
| BarChart.InRange | src/components/GearBarChart.jsx:97-102 | a record is in range exactly when its day lies in the range |
| BarChart.RecordLabel | src/components/GearBarChart.jsx:104-115 | in batch mode always one of the eight slots: the record's own slot when it is listed, "Others" for a missing or unlisted slot; else a label of the group key's unit, the record's own day in day mode |
| BarChart.Aggregate | src/components/GearBarChart.jsx:93-129 | the seeded labels come first, in order, and no label appears twice |
| BarChart.OutOfRangeIgnored | src/components/GearBarChart.jsx:100-102 | a record outside the range leaves every bucket unchanged |
| BarChart.UnknownSlotCountsAsOthers | src/components/GearBarChart.jsx:105-108 | in batch mode a record with an unlisted or missing slot is counted in "Others" |
| BarChart.ListedSlotCounts | src/components/GearBarChart.jsx:100-125 | in batch mode each of the seven listed slots has its bucket at its listed position, counting exactly that day's FAIL and PASS records from that slot |
| BarChart.ChartBuckets | src/components/GearBarChart.jsx:100-128 | the seeded labels come first, keys stay distinct, each bucket counts exactly its in-range FAIL and PASS records |
| BarChart.ChartTotals | src/components/GearBarChart.jsx:100-128 | Defective sums to the in-range FAIL records and Non_defective to the in-range PASS records |
| BarChart.ChartLabelsAreSeeds | src/components/GearBarChart.jsx:117-119 | with a monotone calendar no bucket is created during the fold |
| BarChart.ChartSize | src/components/GearBarChart.jsx:35-68 | a single day gives 8 buckets, a 1..31-day span gives span+1, an inverted range none |
| RateChart.ZeroBuckets | src/components/GearDefectiveRateLineChart.jsx:59 | one bucket per label, in order, with rate, total and fail at 0 |
| RateChart.GenerateRateBuckets | src/components/GearDefectiveRateLineChart.jsx:35-63 | the loop seeds nothing in batch mode, else one empty bucket per period of the range |
| RateChart.FindBucket | src/components/GearDefectiveRateLineChart.jsx:106 | the position of the bucket with the label, or none exactly when no bucket has it |
| RateChart.InDays | src/components/GearDefectiveRateLineChart.jsx:95 | a record is in range exactly when it lies between the first millisecond of the earlier day and the last of the later, whichever order the bounds come in |
| RateChart.RecordLabel | src/components/GearDefectiveRateLineChart.jsx:97-104 | no label exactly in batch mode; else a label of the group key's unit, the record's own day in day mode |
| RateChart.CountRecord | src/components/GearDefectiveRateLineChart.jsx:107-110 | total grows by one, fail by one exactly for FAIL, name and rate are kept, and fail stays within total |
| RateChart.Target | src/components/GearDefectiveRateLineChart.jsx:95-106 | a record is counted exactly when it is in range, has a label and that label names a bucket, and then in the bucket of that name |
| RateChart.Fold | src/components/GearDefectiveRateLineChart.jsx:93-112 | the fold keeps the number of buckets |
| RateChart.Points | src/components/GearDefectiveRateLineChart.jsx:89-121 | one point per seeded bucket, in seeding order |
| RateChart.RateOf | src/components/GearDefectiveRateLineChart.jsx:114-120 | 0 for an empty bucket, else fail/total as a percentage rounded to hundredths, within 0..100% |
| RateChart.Rates | src/components/GearDefectiveRateLineChart.jsx:114-120 | the same buckets in the same order, each with its rate from its counts |
| RateChart.ChartData | src/components/GearDefectiveRateLineChart.jsx:89-121 | the loop seeds, counts and maps to `RateChart.Points`: the `RateChart.Rates` of the fold of the records into the seeded buckets |
| RateChart.RecordDropped | src/components/GearDefectiveRateLineChart.jsx:95-106 | an out-of-range record, or one whose label has no bucket, changes nothing |
| RateChart.FoldKeepsNames | src/components/GearDefectiveRateLineChart.jsx:106-111 | no bucket is added, removed or reordered |
| RateChart.FoldFailWithinTotal | src/components/GearDefectiveRateLineChart.jsx:106-111 | fail never exceeds total in any bucket |
| RateChart.FoldSums | src/components/GearDefectiveRateLineChart.jsx:93-112 | totals grow by exactly the in-range records with a seeded label, fails by the FAIL ones among them |
| RateChart.FoldBucketCounts | src/components/GearDefectiveRateLineChart.jsx:93-112 | each bucket counts exactly the in-range records of its label, and the FAIL ones among them |
| RateChart.SeedsDistinct | src/components/GearDefectiveRateLineChart.jsx:42-60 | no label is seeded twice |
| RateChart.SeedSizes | src/components/GearDefectiveRateLineChart.jsx:42-60 | one bucket per period from start's to end's, span+1 days in day mode, none when inverted |
| RateChart.PointsShape | src/components/GearDefectiveRateLineChart.jsx:89-121 | one point per seeded bucket in order, exact counts, fail <= total, rate within 0..100% |
| RateChart.EmptyRanges | src/components/GearDefectiveRateLineChart.jsx:42-46 | a single-day or inverted range gives an empty chart |
| RateChart.TotalsCountEveryRecordInRange | src/components/GearDefectiveRateLineChart.jsx:93-112 | for a forward range the totals add up to every in-range record and the fails to every in-range FAIL |
| Rounding.RoundHalfUp | src/components/GearPieChart.jsx:51 | the whole number nearest a/b, a half rounding up |
| PieChart.Selects | src/components/GearPieChart.jsx:37-44 | a record is selected exactly when its day lies in the range |
| PieChart.FilteredData | src/components/GearPieChart.jsx:37-46 | the selection is no longer than the data |
| PieChart.Selection | src/components/GearPieChart.jsx:37-46 | an order-preserving subsequence keeping exactly the records whose day is in the range |
| PieChart.DefectivePercent | src/components/GearPieChart.jsx:51 | 0 when nothing is selected, else defective/processed as a rounded whole percentage within 0..100 |
| PieChart.Summarize | src/components/GearPieChart.jsx:48-51 | processed is the selection size, defective at most processed, the percentage is the rounded defective share of the selection, within 0..100 |
| PieChart.SummaryCounts | src/components/GearPieChart.jsx:48-50 | OK + defective = processed; defective counts FAIL, OK counts every other status |
| PieChart.FullPercent | src/components/GearPieChart.jsx:51 | 100% exactly when OK records are at most 1 in 200 of a non-empty selection; all-FAIL gives 100% |
| PieChart.FullWithAnOkRecord | src/components/GearPieChart.jsx:51 | 199 defective of 200 already shows 100% |
| PieChart.ZeroPercent | src/components/GearPieChart.jsx:51 | 0% exactly when nothing is selected or defective records are under 1 in 200 |
| PieChart.PieData | src/components/GearPieChart.jsx:53-56 | exactly two slices, "OK" then "Defective" |
| PieChart.PieSplitsSelection | src/components/GearPieChart.jsx:48-56 | the slices add up to the selection and the second counts its FAIL records |
| PieChart.InvertedRange | src/components/GearPieChart.jsx:37-51 | an end before the start selects nothing and shows 0% |
| GearAnalysis.ByBatch | src/pages/GearAnalysis.jsx:28 | a record passes exactly when its batch id equals the selected one |
| GearAnalysis.ByModule | src/pages/GearAnalysis.jsx:31 | a record passes exactly when it has a module and it equals the selected one |
| GearAnalysis.ByDates | src/pages/GearAnalysis.jsx:33-37 | on the UTC clock, the records from the start day through the day before the end day, plus the end day's first millisecond; nothing when the end precedes the start |
| GearAnalysis.Selected | src/pages/GearAnalysis.jsx:27-37 | a record is selected exactly when it matches every criterion that is set, the dates only when both are |
| GearAnalysis.FilterChain | src/pages/GearAnalysis.jsx:24-41 | the step-by-step narrowing equals one filter by all the criteria that are set |
| GearAnalysis.FilterChainSelection | src/pages/GearAnalysis.jsx:27-38 | an order-preserving subsequence keeping a record exactly when it matches the batch, module and (both-set) dates |
| GearAnalysis.NoCriteriaKeepsAll | src/pages/GearAnalysis.jsx:24-41 | with no batch, no module and not both dates, every record is kept |
| GearAnalysis.EndDayCutOff | src/pages/GearAnalysis.jsx:33-38 | a record later on the end day than the end date's midnight is dropped |
| GearAnalysis.DefectRate | src/pages/GearAnalysis.jsx:51-53 | the FAIL share in tenths of a percent, within 0..100%, 0 for an empty selection |
| GearAnalysis.TrendKey | src/pages/GearAnalysis.jsx:57 | every record gets a day label |
| GearAnalysis.TrendKeyByDay | src/pages/GearAnalysis.jsx:57-58 | two records share a trend row exactly when they were inspected on the same day |
| GearAnalysis.ModuleOf | src/pages/GearAnalysis.jsx:66 | never empty: a record's own module when that is non-empty, "Unknown" when it is missing or empty |
| GearAnalysis.ModuleKey | src/pages/GearAnalysis.jsx:64-70 | every record is filed under a non-empty module key |
| GearAnalysis.TrendData | src/pages/GearAnalysis.jsx:55-62 | the reduce yields the per-day tally fold |
| GearAnalysis.ModuleData | src/pages/GearAnalysis.jsx:64-73 | the reduce yields the per-module tally fold |
| GearAnalysis.TrendShape | src/pages/GearAnalysis.jsx:55-62 | one row per distinct inspection day, exact per-day counts, totals equal all PASS and all FAIL records |
| GearAnalysis.TrendDays | src/pages/GearAnalysis.jsx:55-62 | the rows are the distinct inspection days, each once |
| GearAnalysis.TrendRow | src/pages/GearAnalysis.jsx:57-59 | each row counts exactly its day's PASS and FAIL records |
| GearAnalysis.AllCounted | src/pages/GearAnalysis.jsx:55-73 | when every record gets a key, the rows add up to all PASS and all FAIL records |
| GearAnalysis.ModuleShape | src/pages/GearAnalysis.jsx:64-73 | one row per distinct module, exact per-module counts, totals equal all PASS and all FAIL records |
| GearAnalysis.ModuleNames | src/pages/GearAnalysis.jsx:64-73 | the rows are the distinct modules, each once, "Unknown" standing for a missing one |
| GearAnalysis.ModuleRow | src/pages/GearAnalysis.jsx:66-70 | each row counts exactly its module's PASS and FAIL records |
| GearAnalysis.TruthyModules | src/pages/GearAnalysis.jsx:75 | no entry is empty |
| GearAnalysis.UniqueModules | src/pages/GearAnalysis.jsx:75 | no entry repeats |
| GearAnalysis.TruthyModulesMembers | src/pages/GearAnalysis.jsx:75 | a string is listed exactly when it is some record's non-empty module |
| GearAnalysis.UniqueModulesExact | src/pages/GearAnalysis.jsx:75 | no repeats, no empty entry, exactly the modules of the unfiltered records, ordered by first occurrence |
| Seqs.DedupOrder | src/pages/GearAnalysis.jsx:75 | spreading a `Set` keeps the elements in the order of their first occurrences |
| Dashboard.LastCheckDate | src/pages/Dashboard.jsx:22-25 | at least the epoch and every record's instant, and either the epoch or some record's instant |
| Dashboard.ComputeStats | src/pages/Dashboard.jsx:18-25 | processed is the length, defects the FAIL count, correct the PASS count, defects + correct <= processed, last check the latest inspection instant |
| Dashboard.EmptyStats | src/pages/Dashboard.jsx:18-25 | an empty list gives zero counts and the epoch |
| Dashboard.StatsAccountForAll | src/pages/Dashboard.jsx:18-20 | defects + correct = processed exactly when every status is PASS or FAIL |
| Dashboard.InitialState | src/pages/Dashboard.jsx:8-10 | the page starts loading, with no records and `stats` the empty object `{}`, which is an object |
| Dashboard.Settle | src/pages/Dashboard.jsx:13-55 | loading ends on every path; only an array response stores statistics and records |
| Dashboard.ViewOf | src/pages/Dashboard.jsx:57-60 | as written: the loading message exactly while loading, the failure message exactly when settled with a `stats` value that is not an object |
| Dashboard.FailureMessageUnreachable | src/pages/Dashboard.jsx:57-60 | as written, after any response the page shows the dashboard, even after an error |
| Dashboard.IntendedView | src/pages/Dashboard.jsx:57-60 | loading message while loading; failure message exactly when settled without statistics |
| Dashboard.IntendedViewAfterSettle | src/pages/Dashboard.jsx:57-60 | with the intended guard an array response shows the dashboard and any other the failure message |
| Dashboard.LatestGear | src/pages/Dashboard.jsx:107-110 | none exactly for an empty list, else the last record received |
| Dashboard.LatestGearIsLastCheck | src/pages/Dashboard.jsx:110 | for a list in inspection order the latest gear is the one the last check refers to |
| Dashboard.LatestGearNotNewest | src/pages/Dashboard.jsx:110 | for a list out of order the latest gear shown is not the newest |

## Left out

- Network I/O is not modelled. The `fetch` and `axios` requests become the record list, or a `Dashboard.Response` value.
- React state, effects, memoisation and rendering are not modelled. Charts, cards, routing and styling are UI only.
- The quick-filter buttons are not modelled. They depend on the current time and on the locale's week start.
- dayjs and `Date` internals are not modelled. This covers Gregorian arithmetic, month-end clamping in `add(1, "month")`, and all label and `toLocaleString` formatting. The calendar is a parameter, and labels are injective values.
- Unparsable dates and the "Invalid Date" label are not modelled. Every record has a valid timestamp.
- Range dates are always valid days; an empty date input is not modelled. `dayjs("")` is an invalid date, and the count chart then picks "year" and seeds no bucket. With both inputs empty no record fails the test at GearBarChart.jsx:102, so line 117 creates one bucket per year as records arrive. With only one empty, the other bound still filters at line 102: an empty end date keeps the records from the start day on, an empty start date those up to the end day, each creating its year's bucket. The rate and pie charts come out empty.
- `averageDiameter` and `averageThickness` (GearAnalysis.jsx:43-49) are not modelled. They are floating-point averages formatted with `toFixed`.
- RateChart.RateOf: the rounding is taken on the exact ratio. Double-precision rounding of `fail / total * 100` before `toFixed(2)` can differ at exact halves.
- PieChart.DefectivePercent: the same applies to `Math.round` on a double.
- GearAnalysis.DefectRate: the same applies to `toFixed(1)` on a double.
- Insertion order of JavaScript object keys is not modelled. Integer-like keys, such as a year label or a numeric module name, are enumerated in numeric order. Tables here keep insertion order. Seeded year labels are ascending either way.
- Tally.Tick: a status other than PASS or FAIL leaves the row unchanged. In `trendData` and `moduleData` (GearAnalysis.jsx:59, 70) it instead adds a property named after that status, holding NaN. That extra property is not modelled.
- `module` values are modelled as optional strings. A numeric module and the falsy values `0`, `false` and `NaN` are not distinguished.
- `last_check` is kept as an instant. Its `en-GB` string formatting is not modelled.
- A seeded label written twice into a bucket object is not modelled, because seeded labels are distinct (`BarChart.SeedsEmptyAndDistinct`, `RateChart.SeedsDistinct`).
- BarChart.MonthSeeds, BarChart.YearSeeds, BarChart.ChartLabelsAreSeeds, BarChart.ChartSize, RateChart.TotalsCountEveryRecordInRange: these assume a monotone calendar, in which a later day is never in an earlier month.
- The Latest Gear Details panel's other fields are not modelled: teeth counts, predicted module and the date format.

## Findings

| source | as written | input that shows it | evidently intended | confidence | as-written member | corrected member |
|---|---|---|---|---|---|---|
| src/pages/Dashboard.jsx:58 | the failure message is guarded by `!stats \|\| typeof stats !== "object"`. `stats` starts as `{}` and is only replaced by a filled object, so the guard never holds | a request that fails, or a response that is not an array: the page shows the dashboard with empty statistics | show "Failed to load dashboard data." when no statistics arrived | medium, not executed | Dashboard.FailureMessageUnreachable | Dashboard.IntendedViewAfterSettle |

=== FILE: bar_chart.dfy ===
/** The count chart ("Gear Defects Over Time"): pre-seeded buckets at the
    granularity the range calls for, filled with the FAIL (`Defective`) and PASS
    (`Non_defective`) counts of the records inside the range. */
module BarChart {
  import opened Records
  import opened Granularity
  import Seqs
  import Tally

  const Others: string := "Others"

  /** The fixed production batch slots, with the fallback slot last. */
  const BatchSlots: seq<string> := [
    "09:00-10:00", "10:00-11:00", "11:00-12:00", "13:00-14:00",
    "14:00-15:00", "15:00-16:00", "16:00-17:00", Others
  ]

  function SlotLabels(): (r: seq<Label>)
    ensures |r| == |BatchSlots|
    ensures forall i :: 0 <= i < |r| ==> r[i] == SlotLabel(BatchSlots[i])
  {
    seq(|BatchSlots|, i requires 0 <= i < |BatchSlots| => SlotLabel(BatchSlots[i]))
  }

  /** The labels `generateBuckets` seeds, in insertion order. */
  function SeedLabels(cal: Calendar, k: GroupKey, startDay: int, endDay: int): seq<Label>
  {
    if k == Batch then SlotLabels()
    else
      var unit := UnitOf(k);
      Run(unit, PeriodOf(cal, unit, startDay), PeriodOf(cal, unit, endDay))
  }

  /** `generateBuckets`: an empty bucket per batch slot, or one per day, month
      or year of the range. The source's three period loops differ only in the
      unit they step by; here one loop steps through the period numbers. */
  method GenerateBuckets(cal: Calendar, startDay: int, endDay: int, k: GroupKey)
    returns (buckets: seq<Tally.Row<Label>>)
    ensures buckets == Tally.ZeroRows(SeedLabels(cal, k, startDay, endDay))
  {
    buckets := [];
    if k == Batch {
      for i := 0 to |BatchSlots|
        invariant |buckets| == i
        invariant forall j :: 0 <= j < i ==> buckets[j] == Tally.Row(SlotLabel(BatchSlots[j]), 0, 0)
      {
        buckets := buckets + [Tally.Row(SlotLabel(BatchSlots[i]), 0, 0)];
      }
    } else {
      var unit := UnitOf(k);
      var first := PeriodOf(cal, unit, startDay);
      var last := PeriodOf(cal, unit, endDay);
      var current := first;
      while current <= last
        invariant first <= current <= if first <= last then last + 1 else first
        invariant |buckets| == current - first
        invariant forall j :: 0 <= j < |buckets| ==> buckets[j] == Tally.Row(PeriodLabel(unit, first + j), 0, 0)
        decreases last - current
      {
        buckets := buckets + [Tally.Row(PeriodLabel(unit, current), 0, 0)];
        current := current + 1;
      }
    }
  }

  /** Lines 97-102: a record counts unless it is before the start of the first
      day or after the end of the last; that is, exactly when its day lies in
      the range. */
  function InRange(g: Gear, startDay: int, endDay: int): (b: bool)
    ensures b <==> startDay <= DayOf(g.inspectedAt) <= endDay
  {
    DayWindow(g.inspectedAt, startDay, endDay);
    !(g.inspectedAt < StartOfDay(startDay)) && !(g.inspectedAt > EndOfDay(endDay))
  }

  /** The label a record is filed under: its batch slot, or "Others" for a slot
      outside the fixed list, in batch mode; else its day, month or year. In
      batch mode that is always one of the eight seeded slots. */
  function RecordLabel(cal: Calendar, k: GroupKey, g: Gear): (l: Label)
    ensures k == Batch ==> l in SlotLabels()
    ensures k == Batch && g.batchTime.Some? && g.batchTime.value in BatchSlots ==> l == SlotLabel(g.batchTime.value)
    ensures k == Batch && (g.batchTime.None? || g.batchTime.value !in BatchSlots) ==> l == SlotLabel(Others)
    ensures k != Batch ==> l.PeriodLabel? && l.unit == UnitOf(k)
    ensures k == Day ==> l == PeriodLabel(Days, DayOf(g.inspectedAt))
  {
    assert SlotLabels()[7] == SlotLabel(Others);
    if k == Batch then
      if g.batchTime.Some? && g.batchTime.value in BatchSlots then SlotLabel(g.batchTime.value)
      else SlotLabel(Others)
    else
      var unit := UnitOf(k);
      PeriodLabel(unit, PeriodOf(cal, unit, DayOf(g.inspectedAt)))
  }

  /** The fold's key for a record: its label when it is in range, else nothing. */
  function KeyOf(cal: Calendar, k: GroupKey, startDay: int, endDay: int): Gear -> Option<Label>
  {
    g => if InRange(g, startDay, endDay) then Some(RecordLabel(cal, k, g)) else None
  }

  /** What `chartData` returns for the records `data` and the range from day
      `startDay` to day `endDay`. */
  function Aggregate(cal: Calendar, data: seq<Gear>, startDay: int, endDay: int): (chart: seq<Tally.Row<Label>>)
    ensures var seeds := SeedLabels(cal, GroupKeyOf(startDay, endDay), startDay, endDay);
            |seeds| <= |chart| && Tally.Keys(chart)[..|seeds|] == seeds
    ensures Seqs.Distinct(Tally.Keys(chart))
  {
    var k := GroupKeyOf(startDay, endDay);
    SeedsEmptyAndDistinct(cal, k, startDay, endDay);
    Tally.FoldKeys(Tally.ZeroRows(SeedLabels(cal, k, startDay, endDay)), data, KeyOf(cal, k, startDay, endDay));
    Tally.Fold(Tally.ZeroRows(SeedLabels(cal, k, startDay, endDay)), data, KeyOf(cal, k, startDay, endDay))
  }

  /** `chartData`: choose the granularity, seed the buckets, fold the records in. */
  method ChartData(cal: Calendar, data: seq<Gear>, startDay: int, endDay: int)
    returns (chart: seq<Tally.Row<Label>>)
    ensures chart == Aggregate(cal, data, startDay, endDay)
  {
    var k := GroupKeyOf(startDay, endDay);
    var buckets := GenerateBuckets(cal, startDay, endDay, k);
    chart := Tally.Accumulate(buckets, data, KeyOf(cal, k, startDay, endDay));
  }

  // ---------------------------------------------------------------------------
  // Properties of the seeded buckets

  lemma SlotsDistinct()
    ensures Seqs.Distinct(BatchSlots)
  {
  }

  /** Batch mode seeds the eight fixed slots in their listed order, "Others" last. */
  lemma BatchSeeds(cal: Calendar, startDay: int, endDay: int)
    ensures |SeedLabels(cal, Batch, startDay, endDay)| == 8
    ensures SeedLabels(cal, Batch, startDay, endDay)[7] == SlotLabel(Others)
    ensures forall i :: 0 <= i < 8 ==> SeedLabels(cal, Batch, startDay, endDay)[i] == SlotLabel(BatchSlots[i])
    ensures Seqs.Distinct(SeedLabels(cal, Batch, startDay, endDay))
  {
  }

  /** Day mode seeds one bucket per day from the start through the end, none
      when the end precedes the start, and each day's bucket exactly once. */
  lemma DaySeeds(cal: Calendar, startDay: int, endDay: int)
    ensures |SeedLabels(cal, Day, startDay, endDay)| == if endDay < startDay then 0 else endDay - startDay + 1
    ensures Seqs.Distinct(SeedLabels(cal, Day, startDay, endDay))
    ensures forall d :: PeriodLabel(Days, d) in SeedLabels(cal, Day, startDay, endDay) <==> startDay <= d <= endDay
  {
    RunMembers(Days, startDay, endDay);
  }

  /** Month mode seeds one bucket per month from the start's month through the
      end's, so a range that starts mid-month still gets its first month. */
  lemma MonthSeeds(cal: Calendar, startDay: int, endDay: int)
    requires cal.Monotone()
    requires startDay <= endDay
    ensures |SeedLabels(cal, Month, startDay, endDay)| == cal.monthOf(endDay) - cal.monthOf(startDay) + 1
    ensures Seqs.Distinct(SeedLabels(cal, Month, startDay, endDay))
    ensures SeedLabels(cal, Month, startDay, endDay)[0] == PeriodLabel(Months, cal.monthOf(startDay))
    ensures forall m :: PeriodLabel(Months, m) in SeedLabels(cal, Month, startDay, endDay)
                        <==> cal.monthOf(startDay) <= m <= cal.monthOf(endDay)
  {
    RunMembers(Months, cal.monthOf(startDay), cal.monthOf(endDay));
  }

  /** Year mode seeds one bucket per year from the start's year through the end's. */
  lemma YearSeeds(cal: Calendar, startDay: int, endDay: int)
    requires cal.Monotone()
    requires startDay <= endDay
    ensures |SeedLabels(cal, Year, startDay, endDay)| == cal.YearOf(endDay) - cal.YearOf(startDay) + 1
    ensures Seqs.Distinct(SeedLabels(cal, Year, startDay, endDay))
    ensures forall y :: PeriodLabel(Years, y) in SeedLabels(cal, Year, startDay, endDay)
                        <==> cal.YearOf(startDay) <= y <= cal.YearOf(endDay)
  {
    PeriodMonotone(cal, Years, startDay, endDay);
    RunMembers(Years, cal.YearOf(startDay), cal.YearOf(endDay));
  }

  /** Every seeded bucket is empty and no label is seeded twice. */
  lemma SeedsEmptyAndDistinct(cal: Calendar, k: GroupKey, startDay: int, endDay: int)
    ensures Tally.AllZero(Tally.ZeroRows(SeedLabels(cal, k, startDay, endDay)))
    ensures Seqs.Distinct(SeedLabels(cal, k, startDay, endDay))
  {
    if k != Batch {
      var unit := UnitOf(k);
      RunMembers(unit, PeriodOf(cal, unit, startDay), PeriodOf(cal, unit, endDay));
    }
  }

  // ---------------------------------------------------------------------------
  // Properties of the fold

  /** In-range records with status `status`. */
  function InRangeWith(startDay: int, endDay: int, status: string): Gear -> bool
  {
    g => InRange(g, startDay, endDay) && g.status == status
  }

  /** In-range records with status `status` filed under `lbl`. */
  function FiledAs(cal: Calendar, startDay: int, endDay: int, lbl: Label, status: string): Gear -> bool
  {
    g => InRange(g, startDay, endDay) && RecordLabel(cal, GroupKeyOf(startDay, endDay), g) == lbl && g.status == status
  }

  /** A record outside the range leaves every bucket as it was. */
  lemma OutOfRangeIgnored(cal: Calendar, t: seq<Tally.Row<Label>>, data: seq<Gear>, g: Gear, startDay: int, endDay: int)
    requires !(startDay <= DayOf(g.inspectedAt) <= endDay)
    ensures var keyOf := KeyOf(cal, GroupKeyOf(startDay, endDay), startDay, endDay);
            Tally.Fold(t, data + [g], keyOf) == Tally.Fold(t, data, keyOf)
  {
    assert (data + [g])[..|data|] == data;
  }

  /** In batch mode an in-range record whose batch slot is not one of the fixed
      slots is counted in the "Others" bucket, the eighth, and no other bucket
      changes. */
  lemma UnknownSlotCountsAsOthers(cal: Calendar, t: seq<Tally.Row<Label>>, g: Gear, day: int)
    requires Tally.Keys(t) == SlotLabels()
    requires g.batchTime.None? || g.batchTime.value !in BatchSlots
    requires DayOf(g.inspectedAt) == day
    ensures var u := Tally.Fold(t, [g], KeyOf(cal, Batch, day, day));
            && |u| == 8
            && u[7] == Tally.Tick(t[7], g.status)
            && forall i :: 0 <= i < 7 ==> u[i] == t[i]
  {
    assert ([] + [g]) == [g];
    assert [g][..0] == [];
    assert t[7].key == SlotLabel(Others);
    SlotsDistinct();
  }

  /** Every bucket of the chart ends with exactly the in-range FAIL records
      filed under its label as `Defective`, and exactly the in-range PASS
      records filed under it as `Non_defective`; the seeded labels come first,
      in order, and no label appears twice. */
  lemma ChartBuckets(cal: Calendar, data: seq<Gear>, startDay: int, endDay: int)
    ensures var k := GroupKeyOf(startDay, endDay);
            var chart := Aggregate(cal, data, startDay, endDay);
            && |SeedLabels(cal, k, startDay, endDay)| <= |chart|
            && Tally.Keys(chart)[..|SeedLabels(cal, k, startDay, endDay)|] == SeedLabels(cal, k, startDay, endDay)
            && Seqs.Distinct(Tally.Keys(chart))
            && forall i :: 0 <= i < |chart| ==>
                 && chart[i].fail == Seqs.Count(data, FiledAs(cal, startDay, endDay, chart[i].key, FAIL))
                 && chart[i].pass == Seqs.Count(data, FiledAs(cal, startDay, endDay, chart[i].key, PASS))
  {
    var k := GroupKeyOf(startDay, endDay);
    var seed := Tally.ZeroRows(SeedLabels(cal, k, startDay, endDay));
    var keyOf := KeyOf(cal, k, startDay, endDay);
    var chart := Aggregate(cal, data, startDay, endDay);
    SeedsEmptyAndDistinct(cal, k, startDay, endDay);
    Tally.FoldKeys(seed, data, keyOf);
    forall i | 0 <= i < |chart|
      ensures chart[i].fail == Seqs.Count(data, FiledAs(cal, startDay, endDay, chart[i].key, FAIL))
      ensures chart[i].pass == Seqs.Count(data, FiledAs(cal, startDay, endDay, chart[i].key, PASS))
    {
      Tally.FoldRowCounts(seed, data, keyOf, i);
      Seqs.CountExt(data, Tally.FiledUnder(keyOf, chart[i].key, FAIL), FiledAs(cal, startDay, endDay, chart[i].key, FAIL));
      Seqs.CountExt(data, Tally.FiledUnder(keyOf, chart[i].key, PASS), FiledAs(cal, startDay, endDay, chart[i].key, PASS));
    }
  }

  /** Counts are conserved: the `Defective` counts add up to the number of
      in-range FAIL records and the `Non_defective` counts to the number of
      in-range PASS records; records with any other status count nowhere. */
  lemma ChartTotals(cal: Calendar, data: seq<Gear>, startDay: int, endDay: int)
    ensures Tally.SumFail(Aggregate(cal, data, startDay, endDay)) == Seqs.Count(data, InRangeWith(startDay, endDay, FAIL))
    ensures Tally.SumPass(Aggregate(cal, data, startDay, endDay)) == Seqs.Count(data, InRangeWith(startDay, endDay, PASS))
  {
    var k := GroupKeyOf(startDay, endDay);
    var seed := Tally.ZeroRows(SeedLabels(cal, k, startDay, endDay));
    var keyOf := KeyOf(cal, k, startDay, endDay);
    ZeroSums(seed);
    Tally.FoldSums(seed, data, keyOf);
    Seqs.CountExt(data, Tally.Counted(keyOf, FAIL), InRangeWith(startDay, endDay, FAIL));
    Seqs.CountExt(data, Tally.Counted(keyOf, PASS), InRangeWith(startDay, endDay, PASS));
  }

  lemma {:induction false} ZeroSums(t: seq<Tally.Row<Label>>)
    requires Tally.AllZero(t)
    ensures Tally.SumPass(t) == 0 && Tally.SumFail(t) == 0
  {
    if t != [] {
      ZeroSums(t[..|t| - 1]);
    }
  }

  /** Every in-range record's label is already seeded (the calendar never puts a
      later day in an earlier month), so the fold creates no bucket and the
      chart has exactly the seeded buckets. */
  lemma ChartLabelsAreSeeds(cal: Calendar, data: seq<Gear>, startDay: int, endDay: int)
    requires cal.Monotone()
    ensures Tally.Keys(Aggregate(cal, data, startDay, endDay))
         == SeedLabels(cal, GroupKeyOf(startDay, endDay), startDay, endDay)
  {
    var k := GroupKeyOf(startDay, endDay);
    var seeds := SeedLabels(cal, k, startDay, endDay);
    var keyOf := KeyOf(cal, k, startDay, endDay);
    forall j | 0 <= j < |data| && keyOf(data[j]).Some?
      ensures keyOf(data[j]).value in Tally.Keys(Tally.ZeroRows(seeds))
    {
      var g := data[j];
      var day := DayOf(g.inspectedAt);
      if k == Batch {
        var lbl := RecordLabel(cal, k, g);
        var i :| 0 <= i < |BatchSlots| && lbl == SlotLabel(BatchSlots[i]);
        assert seeds[i] == lbl;
      } else {
        var unit := UnitOf(k);
        PeriodMonotone(cal, unit, startDay, day);
        PeriodMonotone(cal, unit, day, endDay);
        RunMembers(unit, PeriodOf(cal, unit, startDay), PeriodOf(cal, unit, endDay));
      }
    }
    Tally.FoldNoNewKeys(Tally.ZeroRows(seeds), data, keyOf);
  }

  /** Records of day `day` from batch slot `slot` with status `status`. */
  function InSlot(day: int, slot: string, status: string): Gear -> bool
  {
    (g: Gear) => DayOf(g.inspectedAt) == day && g.batchTime == Some(slot) && g.status == status
  }

  /** In batch mode each of the seven listed slots has its own bucket, in
      listed order, counting exactly that day's FAIL and PASS records whose
      batch slot is that slot. */
  lemma ListedSlotCounts(cal: Calendar, data: seq<Gear>, day: int, i: nat)
    requires i < 7
    ensures var chart := Aggregate(cal, data, day, day);
            && i < |chart|
            && chart[i].key == SlotLabel(BatchSlots[i])
            && chart[i].fail == Seqs.Count(data, InSlot(day, BatchSlots[i], FAIL))
            && chart[i].pass == Seqs.Count(data, InSlot(day, BatchSlots[i], PASS))
  {
    var chart := Aggregate(cal, data, day, day);
    var slot := BatchSlots[i];
    ChartBuckets(cal, data, day, day);
    assert Tally.Keys(chart)[i] == Tally.Keys(chart)[..8][i];
    SlotsDistinct();
    forall status: string, g: Gear
      ensures FiledAs(cal, day, day, SlotLabel(slot), status)(g) == InSlot(day, slot, status)(g)
    {
      var l := RecordLabel(cal, Batch, g);
      if g.batchTime.Some? && g.batchTime.value in BatchSlots {
        assert l == SlotLabel(g.batchTime.value);
      } else {
        assert l == SlotLabel(Others);
      }
    }
    Seqs.CountExt(data, FiledAs(cal, day, day, SlotLabel(slot), FAIL), InSlot(day, slot, FAIL));
    Seqs.CountExt(data, FiledAs(cal, day, day, SlotLabel(slot), PASS), InSlot(day, slot, PASS));
  }

  /** A single-day range gives exactly the eight slot buckets; a range of 1 to
      31 days one bucket per day; an inverted range no bucket at all. */
  lemma ChartSize(cal: Calendar, data: seq<Gear>, startDay: int, endDay: int)
    requires cal.Monotone()
    ensures startDay == endDay ==> |Aggregate(cal, data, startDay, endDay)| == 8
    ensures startDay < endDay <= startDay + 31 ==> |Aggregate(cal, data, startDay, endDay)| == endDay - startDay + 1
    ensures endDay < startDay ==> Aggregate(cal, data, startDay, endDay) == []
  {
    ChartLabelsAreSeeds(cal, data, startDay, endDay);
    DaySeeds(cal, startDay, endDay);
    BatchSeeds(cal, startDay, endDay);
  }
}

=== FILE: dashboard.dfy ===
/** The dashboard page: the headline statistics computed when the record list
    arrives, what the page shows once the request has settled, and the
    "latest gear" panel. */
module Dashboard {
  import opened Records
  import Seqs

  /** `stats`: `gears_processed`, `defects_found`, `correct_gears` and the
      instant behind `last_check`, in milliseconds since the epoch. */
  datatype Stats = Stats(gearsProcessed: nat, defectsFound: nat, correctGears: nat, lastCheck: int)

  /** The instant of a record's inspection, in milliseconds since the epoch
      (`inspectedAt` is on the local clock, `utcOffset` ahead of UTC). */
  function Instant(g: Gear, utcOffset: int): int
  {
    g.inspectedAt - utcOffset
  }

  /** Lines 22-25: the latest inspection instant, folding from the left and
      starting at the epoch (`new Date(0)`). */
  function LastCheckDate(gears: seq<Gear>, utcOffset: int): (latest: int)
    ensures latest >= 0
    ensures forall i :: 0 <= i < |gears| ==> Instant(gears[i], utcOffset) <= latest
    ensures latest == 0 || exists i :: 0 <= i < |gears| && Instant(gears[i], utcOffset) == latest
  {
    if gears == [] then 0
    else
      var latest := LastCheckDate(gears[..|gears| - 1], utcOffset);
      var date := Instant(gears[|gears| - 1], utcOffset);
      if date > latest then date else latest
  }

  /** Lines 18-25: the statistics of a record list. */
  function ComputeStats(gears: seq<Gear>, utcOffset: int): (st: Stats)
    ensures st.gearsProcessed == |gears|
    ensures st.defectsFound == Seqs.Count(gears, IsFail)
    ensures st.correctGears == Seqs.Count(gears, IsPass)
    ensures st.defectsFound + st.correctGears <= st.gearsProcessed
    ensures st.lastCheck == LastCheckDate(gears, utcOffset)
  {
    Seqs.CountDisjoint(gears, IsFail, IsPass);
    Stats(|gears|, |Seqs.Filter(gears, IsFail)|, |Seqs.Filter(gears, IsPass)|, LastCheckDate(gears, utcOffset))
  }

  /** With no records the last check is the epoch and every count is 0. */
  lemma EmptyStats(utcOffset: int)
    ensures ComputeStats([], utcOffset) == Stats(0, 0, 0, 0)
  {
  }

  /** The defects and the correct gears account for every record exactly when
      every status is PASS or FAIL. */
  lemma StatsAccountForAll(gears: seq<Gear>, utcOffset: int)
    ensures var st := ComputeStats(gears, utcOffset);
            st.defectsFound + st.correctGears == st.gearsProcessed <==> AllPassOrFail(gears)
  {
    CountSplit(gears);
  }

  /** Every record's status is PASS or FAIL. */
  predicate AllPassOrFail(gears: seq<Gear>)
  {
    forall i :: 0 <= i < |gears| ==> gears[i].status == PASS || gears[i].status == FAIL
  }

  /** Records that are neither PASS nor FAIL. */
  function IsOther(g: Gear): bool { !IsFail(g) && !IsPass(g) }

  lemma {:induction false} CountSplit(gears: seq<Gear>)
    ensures Seqs.Count(gears, IsFail) + Seqs.Count(gears, IsPass) + Seqs.Count(gears, IsOther) == |gears|
    ensures Seqs.Count(gears, IsOther) == 0 <==> forall i :: 0 <= i < |gears| ==> !IsOther(gears[i])
  {
    if gears != [] {
      var n := |gears| - 1;
      CountSplit(gears[..n]);
      if forall i :: 0 <= i < |gears| ==> !IsOther(gears[i]) {
        forall i | 0 <= i < n
          ensures !IsOther(gears[..n][i])
        {
          assert gears[..n][i] == gears[i];
        }
      }
      if forall i :: 0 <= i < n ==> !IsOther(gears[..n][i]) {
        forall i | 0 <= i < n
          ensures !IsOther(gears[i])
        {
          assert gears[..n][i] == gears[i];
        }
      }
    }
  }

  // ---------------------------------------------------------------------------
  // Settling the request (lines 8-60)

  /** How the request for the record list settled: a JSON array, some other
      JSON value, or a network or parse error. */
  datatype Response = JsonArray(gears: seq<Gear>) | NotAnArray | FetchError

  /** The `stats` state: the initial empty object `{}`, or the computed
      statistics. Both are objects. */
  datatype StatsValue = EmptyObject | Computed(stats: Stats)

  datatype PageState = PageState(stats: StatsValue, gearData: seq<Gear>, loading: bool)

  /** Lines 8-10: no statistics, no records, loading. */
  function InitialState(): (st: PageState)
    ensures st.stats.EmptyObject? && IsObject(st.stats)
    ensures st.gearData == [] && st.loading
  {
    PageState(EmptyObject, [], true)
  }

  /** Lines 16-54: an array response stores its statistics and its records;
      any other outcome leaves both as they were; every outcome ends loading. */
  function Settle(st: PageState, resp: Response, utcOffset: int): (next: PageState)
    ensures !next.loading
    ensures resp.JsonArray? ==> next.stats == Computed(ComputeStats(resp.gears, utcOffset)) && next.gearData == resp.gears
    ensures !resp.JsonArray? ==> next.stats == st.stats && next.gearData == st.gearData
  {
    match resp
    case JsonArray(gears) => PageState(Computed(ComputeStats(gears, utcOffset)), gears, false)
    case _ => st.(loading := false)
  }

  /** What the page renders. */
  datatype View = LoadingMessage | FailureMessage | Dashboard

  /** Lines 57-60 as written: the failure message is guarded by `!stats ||
      typeof stats !== "object"`, and both kinds of `stats` value are objects. */
  function ViewOf(st: PageState): (v: View)
    ensures v == LoadingMessage <==> st.loading
    ensures v == FailureMessage <==> !st.loading && !IsObject(st.stats)
    ensures v == Dashboard <==> !st.loading && IsObject(st.stats)
  {
    if st.loading then LoadingMessage
    else if !IsObject(st.stats) then FailureMessage
    else Dashboard
  }

  /** `typeof stats === "object"` (and `stats` is truthy). */
  predicate IsObject(v: StatsValue)
  {
    v.EmptyObject? || v.Computed?
  }

  /** As written, a failed request leaves the page showing the dashboard with
      empty statistics: the failure message is unreachable. */
  lemma FailureMessageUnreachable(resp: Response, utcOffset: int)
    ensures ViewOf(Settle(InitialState(), resp, utcOffset)) == Dashboard
    ensures ViewOf(Settle(InitialState(), FetchError, utcOffset)) != FailureMessage
  {
  }

  /** The failure message shown when no statistics arrived, as the guard
      evidently intends. */
  function IntendedView(st: PageState): (v: View)
    ensures v == LoadingMessage <==> st.loading
    ensures v == FailureMessage <==> !st.loading && st.stats.EmptyObject?
  {
    if st.loading then LoadingMessage
    else if st.stats.EmptyObject? then FailureMessage
    else Dashboard
  }

  /** Once the request settles, the intended page shows the dashboard exactly
      when the response was an array, and the failure message otherwise. */
  lemma IntendedViewAfterSettle(resp: Response, utcOffset: int)
    ensures IntendedView(Settle(InitialState(), resp, utcOffset)) == if resp.JsonArray? then Dashboard else FailureMessage
  {
  }

  // ---------------------------------------------------------------------------
  // The latest gear (lines 107-110)

  /** The record the "Latest Gear Details" panel shows: the last one received,
      or none for an empty list. */
  function LatestGear(gearData: seq<Gear>): (g: Option<Gear>)
    ensures g.None? <==> gearData == []
    ensures g.Some? ==> g.value == gearData[|gearData| - 1]
  {
    if gearData == [] then None else Some(gearData[|gearData| - 1])
  }

  /** Inspection instants that never decrease along the list. */
  predicate SortedByDate(gears: seq<Gear>)
  {
    forall i, j :: 0 <= i <= j < |gears| ==> gears[i].inspectedAt <= gears[j].inspectedAt
  }

  /** When the list is in inspection order (and after the epoch) the latest gear
      is the one the last check refers to. */
  lemma LatestGearIsLastCheck(gears: seq<Gear>, utcOffset: int)
    requires SortedByDate(gears)
    requires gears != [] && Instant(gears[|gears| - 1], utcOffset) >= 0
    ensures Instant(LatestGear(gears).value, utcOffset) == LastCheckDate(gears, utcOffset)
  {
    var latest := LastCheckDate(gears, utcOffset);
    if latest != 0 {
      var i :| 0 <= i < |gears| && Instant(gears[i], utcOffset) == latest;
      assert gears[i].inspectedAt <= gears[|gears| - 1].inspectedAt;
    }
  }

  /** Otherwise it need not be: the panel shows the last record received, not
      the newest. */
  lemma LatestGearNotNewest()
    ensures var newer := Gear(PASS, 2 * MsPerDay, None, "B1", None);
            var older := Gear(FAIL, MsPerDay, None, "B2", None);
            LatestGear([newer, older]) == Some(older)
            && LastCheckDate([newer, older], 0) == Instant(newer, 0) != Instant(older, 0)
  {
    var newer := Gear(PASS, 2 * MsPerDay, None, "B1", None);
    var older := Gear(FAIL, MsPerDay, None, "B2", None);
    assert [newer, older][..1] == [newer];
    assert [newer][..0] == [];
  }
}

=== FILE: gear_analysis.dfy ===
/** The analysis page: a chain of optional filters over the inspection records,
    the per-day and per-module PASS/FAIL tallies of the filtered records, their
    defect rate, and the list of modules offered by the module filter. */
module GearAnalysis {
  import opened Records
  import opened Granularity
  import opened Rounding
  import Seqs
  import Tally

  // ---------------------------------------------------------------------------
  // The filter chain (lines 24-41)

  /** `new Date("YYYY-MM-DD")` reads a date-only string as midnight UTC; on the
      local clock that instant is midnight plus the zone's offset from UTC
      (`utcOffset`, in milliseconds, east positive). */
  function DateInstant(day: int, utcOffset: int): int
  {
    StartOfDay(day) + utcOffset
  }

  /** Line 28: `item.batch_id === batchId`. */
  function ByBatch(batchId: string): (sel: Gear -> bool)
    ensures forall g: Gear :: sel(g) <==> g.batchId == batchId
  {
    (g: Gear) => g.batchId == batchId
  }

  /** Line 31: `item["module"] === moduleFilter`. */
  function ByModule(moduleFilter: string): (sel: Gear -> bool)
    ensures forall g: Gear :: sel(g) <==> g.moduleName == Some(moduleFilter)
  {
    (g: Gear) => g.moduleName == Some(moduleFilter)
  }

  /** Lines 34-37: from the start date's midnight through the end date's
      midnight, both inclusive. Read on the UTC clock, that keeps the records
      of the start day up to the day before the end day, and of the end day
      only those inspected at its very first millisecond. */
  function ByDates(startDay: int, endDay: int, utcOffset: int): (sel: Gear -> bool)
    ensures forall g: Gear :: sel(g) <==>
              || startDay <= DayOf(g.inspectedAt - utcOffset) <= endDay - 1
              || (startDay <= endDay && g.inspectedAt - utcOffset == StartOfDay(endDay))
  {
    DayWindows(startDay, endDay - 1);
    (g: Gear) => DateInstant(startDay, utcOffset) <= g.inspectedAt <= DateInstant(endDay, utcOffset)
  }

  /** The batch criterion; an empty batch id selects everything. */
  function AfterBatch(batchId: string): (sel: Gear -> bool)
    ensures forall g: Gear :: sel(g) <==> (batchId != "" ==> g.batchId == batchId)
  {
    (g: Gear) => batchId != "" ==> g.batchId == batchId
  }

  /** The batch and module criteria; an empty module selects every module. */
  function AfterModule(batchId: string, moduleFilter: string): (sel: Gear -> bool)
    ensures forall g: Gear :: sel(g) <==>
              (batchId != "" ==> g.batchId == batchId) && (moduleFilter != "" ==> g.moduleName == Some(moduleFilter))
  {
    var byBatch := AfterBatch(batchId);
    (g: Gear) => byBatch(g) && (moduleFilter != "" ==> g.moduleName == Some(moduleFilter))
  }

  /** All three criteria; an empty batch id or module selects everything, and
      the dates apply only when both are set. */
  function Selected(batchId: string, moduleFilter: string, startDate: Option<int>, endDate: Option<int>, utcOffset: int)
    : (sel: Gear -> bool)
    ensures forall g: Gear :: sel(g) <==>
              && (batchId != "" ==> g.batchId == batchId)
              && (moduleFilter != "" ==> g.moduleName == Some(moduleFilter))
              && (startDate.Some? && endDate.Some? ==>
                    DateInstant(startDate.value, utcOffset) <= g.inspectedAt <= DateInstant(endDate.value, utcOffset))
  {
    var byIds := AfterModule(batchId, moduleFilter);
    (g: Gear) => byIds(g)
         && (startDate.Some? && endDate.Some? ==> ByDates(startDate.value, endDate.value, utcOffset)(g))
  }

  /** The filter effect: start from every record and narrow by each criterion
      that is set, in the source's order. */
  method FilterChain(gearData: seq<Gear>, batchId: string, moduleFilter: string,
                     startDate: Option<int>, endDate: Option<int>, utcOffset: int)
    returns (filtered: seq<Gear>)
    ensures filtered == Seqs.Filter(gearData, Selected(batchId, moduleFilter, startDate, endDate, utcOffset))
  {
    filtered := gearData;
    if batchId != "" {
      filtered := Seqs.Filter(filtered, ByBatch(batchId));
      Seqs.FilterExt(gearData, ByBatch(batchId), AfterBatch(batchId));
    } else {
      Seqs.FilterAll(gearData, AfterBatch(batchId));
    }
    assert filtered == Seqs.Filter(gearData, AfterBatch(batchId));
    if moduleFilter != "" {
      filtered := Seqs.Filter(filtered, ByModule(moduleFilter));
      Seqs.FilterTwice(gearData, AfterBatch(batchId), ByModule(moduleFilter), AfterModule(batchId, moduleFilter));
    } else {
      Seqs.FilterExt(gearData, AfterBatch(batchId), AfterModule(batchId, moduleFilter));
    }
    assert filtered == Seqs.Filter(gearData, AfterModule(batchId, moduleFilter));
    var selected := Selected(batchId, moduleFilter, startDate, endDate, utcOffset);
    if startDate.Some? && endDate.Some? {
      var inDates := ByDates(startDate.value, endDate.value, utcOffset);
      filtered := Seqs.Filter(filtered, inDates);
      Seqs.FilterTwice(gearData, AfterModule(batchId, moduleFilter), inDates, selected);
    } else {
      Seqs.FilterExt(gearData, AfterModule(batchId, moduleFilter), selected);
    }
  }

  /** The filtered records keep their order, and a record is kept exactly when
      it matches every criterion that is set. */
  lemma FilterChainSelection(gearData: seq<Gear>, batchId: string, moduleFilter: string,
                             startDate: Option<int>, endDate: Option<int>, utcOffset: int)
    ensures var filtered := Seqs.Filter(gearData, Selected(batchId, moduleFilter, startDate, endDate, utcOffset));
            && Seqs.IsSubsequence(filtered, gearData)
            && forall g :: g in filtered <==>
                 && g in gearData
                 && (batchId != "" ==> g.batchId == batchId)
                 && (moduleFilter != "" ==> g.moduleName == Some(moduleFilter))
                 && (startDate.Some? && endDate.Some? ==>
                       DateInstant(startDate.value, utcOffset) <= g.inspectedAt <= DateInstant(endDate.value, utcOffset))
  {
    var selected := Selected(batchId, moduleFilter, startDate, endDate, utcOffset);
    Seqs.FilterIsSubsequence(gearData, selected);
    Seqs.FilterMembers(gearData, selected);
  }

  /** With no criterion set the page shows every record. */
  lemma NoCriteriaKeepsAll(gearData: seq<Gear>, startDate: Option<int>, endDate: Option<int>, utcOffset: int)
    requires startDate.None? || endDate.None?
    ensures Seqs.Filter(gearData, Selected("", "", startDate, endDate, utcOffset)) == gearData
  {
    Seqs.FilterAll(gearData, Selected("", "", startDate, endDate, utcOffset));
  }

  /** The end date bounds by its midnight: a record inspected later on the end
      day than that instant is dropped, though it lies on the end day. */
  lemma EndDayCutOff(g: Gear, batchId: string, moduleFilter: string, startDay: int, endDay: int, utcOffset: int)
    requires DayOf(g.inspectedAt) == endDay
    requires g.inspectedAt > DateInstant(endDay, utcOffset)
    ensures !Selected(batchId, moduleFilter, Some(startDay), Some(endDay), utcOffset)(g)
  {
    assert !ByDates(startDay, endDay, utcOffset)(g);
  }

  // ---------------------------------------------------------------------------
  // Rates and tallies (lines 51-73)


  /** Lines 51-53: the FAIL share of the filtered records as a percentage with
      one decimal, counted in tenths; the denominator `length || 1` makes an
      empty selection give 0. */
  function DefectRate(filtered: seq<Gear>): (r: int)
    ensures 0 <= r <= 1000
    ensures filtered == [] ==> r == 0
    ensures filtered != [] ==>
              var fails := Seqs.Count(filtered, IsFail);
              -|filtered| < 2 * |filtered| * r - 2000 * fails <= |filtered|
  {
    var fails := Seqs.Count(filtered, IsFail);
    var denominator := if |filtered| == 0 then 1 else |filtered|;
    RoundedAtMost(1000 * fails, denominator, 1000);
    RoundHalfUp(1000 * fails, denominator)
  }

  /** Line 57: the `DD/MM/YYYY` label of a record's inspection day. Every
      record gets a day label. */
  function TrendKey(): (key: Gear -> Option<Label>)
    ensures forall g: Gear :: key(g).Some? && key(g).value.PeriodLabel? && key(g).value.unit == Days
  {
    (g: Gear) => Some(PeriodLabel(Days, DayOf(g.inspectedAt)))
  }

  /** Two records share a trend key exactly when they were inspected on the
      same day. */
  lemma TrendKeyByDay(g1: Gear, g2: Gear)
    ensures TrendKey()(g1) == TrendKey()(g2) <==> DayOf(g1.inspectedAt) == DayOf(g2.inspectedAt)
  {
  }

  /** Line 66: `g["module"] || "Unknown"`, the module a record is grouped
      under: its own when that is non-empty, else "Unknown". It is never empty. */
  function ModuleOf(g: Gear): (m: string)
    ensures m != ""
    ensures g.moduleName.Some? && g.moduleName.value != "" ==> m == g.moduleName.value
    ensures g.moduleName.None? || g.moduleName.value == "" ==> m == "Unknown"
  {
    if g.moduleName.Some? && g.moduleName.value != "" then g.moduleName.value else "Unknown"
  }

  /** The `moduleData` key: every record is filed under its module. */
  function ModuleKey(): (key: Gear -> Option<string>)
    ensures forall g: Gear :: key(g).Some? && key(g).value != ""
  {
    (g: Gear) => Some(ModuleOf(g))
  }

  /** `trendData`: one row per inspection day, in order of first appearance. */
  method TrendData(filtered: seq<Gear>) returns (trend: seq<Tally.Row<Label>>)
    ensures trend == Tally.Fold([], filtered, TrendKey())
  {
    trend := Tally.Accumulate([], filtered, TrendKey());
  }

  /** `moduleData`: one row per module, in order of first appearance. */
  method ModuleData(filtered: seq<Gear>) returns (modules: seq<Tally.Row<string>>)
    ensures modules == Tally.Fold([], filtered, ModuleKey())
  {
    modules := Tally.Accumulate([], filtered, ModuleKey());
  }

  /** Records inspected on day `day` with status `status`. */
  function OnDay(day: int, status: string): Gear -> bool
  {
    (g: Gear) => DayOf(g.inspectedAt) == day && g.status == status
  }

  /** `trendData` has one row per distinct inspection day of the filtered
      records and no other; each row counts exactly that day's PASS and FAIL
      records, so the rows add up to all the PASS and all the FAIL records. */
  lemma TrendShape(filtered: seq<Gear>)
    ensures var trend := Tally.Fold([], filtered, TrendKey());
            && Seqs.Distinct(Tally.Keys(trend))
            && (forall u, n :: PeriodLabel(u, n) in Tally.Keys(trend) <==>
                 u == Days && exists j :: 0 <= j < |filtered| && DayOf(filtered[j].inspectedAt) == n)
            && (forall i :: 0 <= i < |trend| ==>
                 trend[i].key.PeriodLabel? &&
                 trend[i].pass == Seqs.Count(filtered, OnDay(trend[i].key.index, PASS)) &&
                 trend[i].fail == Seqs.Count(filtered, OnDay(trend[i].key.index, FAIL)))
            && Tally.SumPass(trend) == Seqs.Count(filtered, IsPass)
            && Tally.SumFail(trend) == Seqs.Count(filtered, IsFail)
  {
    var trend := Tally.Fold([], filtered, TrendKey());
    TrendDays(filtered);
    forall i | 0 <= i < |trend|
      ensures trend[i].key.PeriodLabel?
      ensures trend[i].pass == Seqs.Count(filtered, OnDay(trend[i].key.index, PASS))
      ensures trend[i].fail == Seqs.Count(filtered, OnDay(trend[i].key.index, FAIL))
    {
      TrendRow(filtered, i);
    }
    AllCounted(filtered, TrendKey());
  }

  /** The rows of `trendData` are the distinct inspection days. */
  lemma TrendDays(filtered: seq<Gear>)
    ensures var trend := Tally.Fold([], filtered, TrendKey());
            && Seqs.Distinct(Tally.Keys(trend))
            && forall u, n :: PeriodLabel(u, n) in Tally.Keys(trend) <==>
                 u == Days && exists j :: 0 <= j < |filtered| && DayOf(filtered[j].inspectedAt) == n
  {
    var keyOf := TrendKey();
    var trend := Tally.Fold([], filtered, keyOf);
    Tally.FoldKeys([], filtered, keyOf);
    forall u, n
      ensures PeriodLabel(u, n) in Tally.Keys(trend) <==>
                u == Days && exists j :: 0 <= j < |filtered| && DayOf(filtered[j].inspectedAt) == n
    {
      if exists j :: 0 <= j < |filtered| && DayOf(filtered[j].inspectedAt) == n {
        var j :| 0 <= j < |filtered| && DayOf(filtered[j].inspectedAt) == n;
        assert keyOf(filtered[j]) == Some(PeriodLabel(Days, n));
      }
    }
  }

  /** A key function that files every record somewhere (as both the trend and
      the module keys do) gives rows that add up to all the PASS and all the
      FAIL records. */
  lemma AllCounted<K>(data: seq<Gear>, keyOf: Gear -> Option<K>)
    requires forall g :: keyOf(g).Some?
    ensures Tally.SumPass(Tally.Fold([], data, keyOf)) == Seqs.Count(data, IsPass)
    ensures Tally.SumFail(Tally.Fold([], data, keyOf)) == Seqs.Count(data, IsFail)
  {
    Tally.FoldSums([], data, keyOf);
    Seqs.CountExt(data, Tally.Counted(keyOf, PASS), IsPass);
    Seqs.CountExt(data, Tally.Counted(keyOf, FAIL), IsFail);
  }

  /** One row of `trendData` counts exactly its day's records. */
  lemma TrendRow(filtered: seq<Gear>, i: nat)
    requires i < |Tally.Fold([], filtered, TrendKey())|
    ensures var row := Tally.Fold([], filtered, TrendKey())[i];
            && row.key.PeriodLabel?
            && row.pass == Seqs.Count(filtered, OnDay(row.key.index, PASS))
            && row.fail == Seqs.Count(filtered, OnDay(row.key.index, FAIL))
  {
    var keyOf := TrendKey();
    var trend := Tally.Fold([], filtered, keyOf);
    Tally.FoldKeys([], filtered, keyOf);
    assert Tally.Keys(trend)[i] == trend[i].key;
    assert Tally.Mentions(filtered, keyOf, trend[i].key);
    var j :| 0 <= j < |filtered| && keyOf(filtered[j]) == Some(trend[i].key);
    var day := trend[i].key.index;
    Tally.FoldRowCounts([], filtered, keyOf, i);
    Seqs.CountExt(filtered, Tally.FiledUnder(keyOf, trend[i].key, PASS), OnDay(day, PASS));
    Seqs.CountExt(filtered, Tally.FiledUnder(keyOf, trend[i].key, FAIL), OnDay(day, FAIL));
  }

  /** Records grouped under module `m` with status `status`. */
  function InModule(m: string, status: string): Gear -> bool
  {
    (g: Gear) => ModuleOf(g) == m && g.status == status
  }

  /** `moduleData` has one row per distinct module of the filtered records,
      with records without a module under "Unknown"; each row counts exactly
      its module's PASS and FAIL records, and the rows add up to all the PASS
      and all the FAIL records. */
  lemma ModuleShape(filtered: seq<Gear>)
    ensures var modules := Tally.Fold([], filtered, ModuleKey());
            && Seqs.Distinct(Tally.Keys(modules))
            && (forall m :: m in Tally.Keys(modules) <==> exists j :: 0 <= j < |filtered| && ModuleOf(filtered[j]) == m)
            && (forall i :: 0 <= i < |modules| ==>
                 modules[i].pass == Seqs.Count(filtered, InModule(modules[i].key, PASS)) &&
                 modules[i].fail == Seqs.Count(filtered, InModule(modules[i].key, FAIL)))
            && Tally.SumPass(modules) == Seqs.Count(filtered, IsPass)
            && Tally.SumFail(modules) == Seqs.Count(filtered, IsFail)
  {
    var modules := Tally.Fold([], filtered, ModuleKey());
    ModuleNames(filtered);
    forall i | 0 <= i < |modules|
      ensures modules[i].pass == Seqs.Count(filtered, InModule(modules[i].key, PASS))
      ensures modules[i].fail == Seqs.Count(filtered, InModule(modules[i].key, FAIL))
    {
      ModuleRow(filtered, i);
    }
    AllCounted(filtered, ModuleKey());
  }

  /** The rows of `moduleData` are the distinct modules of the records. */
  lemma ModuleNames(filtered: seq<Gear>)
    ensures var modules := Tally.Fold([], filtered, ModuleKey());
            && Seqs.Distinct(Tally.Keys(modules))
            && forall m :: m in Tally.Keys(modules) <==> exists j :: 0 <= j < |filtered| && ModuleOf(filtered[j]) == m
  {
    Tally.FoldKeys([], filtered, ModuleKey());
    forall m
      ensures Tally.Mentions(filtered, ModuleKey(), m) <==> exists j :: 0 <= j < |filtered| && ModuleOf(filtered[j]) == m
    {
      ModuleMentioned(filtered, m);
    }
  }

  /** Some record is grouped under module `m` exactly when some record's module is `m`. */
  lemma ModuleMentioned(filtered: seq<Gear>, m: string)
    ensures Tally.Mentions(filtered, ModuleKey(), m) <==> exists j :: 0 <= j < |filtered| && ModuleOf(filtered[j]) == m
  {
    if exists j :: 0 <= j < |filtered| && ModuleOf(filtered[j]) == m {
      var j :| 0 <= j < |filtered| && ModuleOf(filtered[j]) == m;
      assert ModuleKey()(filtered[j]) == Some(m);
    }
  }

  /** One row of `moduleData` counts exactly its module's records. */
  lemma ModuleRow(filtered: seq<Gear>, i: nat)
    requires i < |Tally.Fold([], filtered, ModuleKey())|
    ensures var row := Tally.Fold([], filtered, ModuleKey())[i];
            && row.pass == Seqs.Count(filtered, InModule(row.key, PASS))
            && row.fail == Seqs.Count(filtered, InModule(row.key, FAIL))
  {
    var keyOf := ModuleKey();
    var modules := Tally.Fold([], filtered, keyOf);
    Tally.FoldRowCounts([], filtered, keyOf, i);
    Seqs.CountExt(filtered, Tally.FiledUnder(keyOf, modules[i].key, PASS), InModule(modules[i].key, PASS));
    Seqs.CountExt(filtered, Tally.FiledUnder(keyOf, modules[i].key, FAIL), InModule(modules[i].key, FAIL));
  }

  // ---------------------------------------------------------------------------
  // The module list (line 75)

  /** The records' modules with the falsy ones (missing or empty) dropped, in
      order. */
  function TruthyModules(gearData: seq<Gear>): (ms: seq<string>)
    ensures forall i :: 0 <= i < |ms| ==> ms[i] != ""
  {
    if gearData == [] then []
    else
      var g := gearData[|gearData| - 1];
      TruthyModules(gearData[..|gearData| - 1])
        + (if g.moduleName.Some? && g.moduleName.value != "" then [g.moduleName.value] else [])
  }

  /** `uniqueModules`: the truthy modules without repeats, first occurrences first. */
  function UniqueModules(gearData: seq<Gear>): (ms: seq<string>)
    ensures Seqs.Distinct(ms)
  {
    Seqs.Dedup(TruthyModules(gearData))
  }

  /** A string is a truthy module exactly when it is the non-empty module of
      some record. */
  lemma {:induction false} TruthyModulesMembers(gearData: seq<Gear>, m: string)
    ensures m in TruthyModules(gearData) <==>
              m != "" && exists j :: 0 <= j < |gearData| && gearData[j].moduleName == Some(m)
  {
    if gearData != [] {
      var n := |gearData| - 1;
      TruthyModulesMembers(gearData[..n], m);
      if exists j :: 0 <= j < |gearData| && gearData[j].moduleName == Some(m) {
        var j :| 0 <= j < |gearData| && gearData[j].moduleName == Some(m);
        if j < n {
          assert gearData[..n][j] == gearData[j];
        }
      }
      if exists j :: 0 <= j < n && gearData[..n][j].moduleName == Some(m) {
        var j :| 0 <= j < n && gearData[..n][j].moduleName == Some(m);
        assert gearData[j] == gearData[..n][j];
      }
    }
  }

  /** The module list has no repeats and no empty entry, and names exactly the
      modules that occur in the unfiltered records, in the order of their
      first occurrence. */
  lemma UniqueModulesExact(gearData: seq<Gear>)
    ensures var ms := UniqueModules(gearData);
            && Seqs.Distinct(ms)
            && (forall i :: 0 <= i < |ms| ==> ms[i] != "")
            && (forall m :: m in ms <==> m != "" && exists j :: 0 <= j < |gearData| && gearData[j].moduleName == Some(m))
            && forall i, j :: 0 <= i < j < |ms| ==>
                 Seqs.FirstIndex(TruthyModules(gearData), ms[i]) < Seqs.FirstIndex(TruthyModules(gearData), ms[j])
  {
    var truthy := TruthyModules(gearData);
    var ms := UniqueModules(gearData);
    Seqs.DedupOrder(truthy);
    forall m
      ensures m in ms <==> m != "" && exists j :: 0 <= j < |gearData| && gearData[j].moduleName == Some(m)
    {
      TruthyModulesMembers(gearData, m);
      if m in truthy {
        var i :| 0 <= i < |truthy| && truthy[i] == m;
      }
      if m in ms {
        var i :| 0 <= i < |ms| && ms[i] == m;
      }
    }
    forall i | 0 <= i < |ms|
      ensures ms[i] != ""
    {
      var j :| 0 <= j < |truthy| && truthy[j] == ms[i];
    }
  }
}

=== FILE: granularity.dfy ===
/** The grouping granularity both time charts derive from the selected range,
    and the bucket labels they key their tables by. */
module Granularity {
  import opened Records
  import Seqs

  /** The four group keys of `getGroupKey`: "batch", "day", "month", "year". */
  datatype GroupKey = Batch | Day | Month | Year

  /** `getGroupKey`: the granularity for the range from day `startDay` to day
      `endDay`, chosen by the number of days between them. An end before the
      start gives a negative count, which falls in the "day" band. */
  function GroupKeyOf(startDay: int, endDay: int): (k: GroupKey)
    ensures k == Batch <==> startDay == endDay
    ensures k == Day <==> endDay < startDay || startDay < endDay <= startDay + 31
    ensures k == Month <==> startDay + 32 <= endDay <= startDay + 365
    ensures k == Year <==> startDay + 365 < endDay
  {
    var days := endDay - startDay;
    if days == 0 then Batch
    else if days <= 31 then Day
    else if days <= 365 then Month
    else Year
  }

  /** The calendar unit a bucket spans. */
  datatype Period = Days | Months | Years

  /** A bucket label. The source formats day buckets as "MMM DD", month buckets
      as "MMM YYYY" and year buckets as "YYYY"; a label here is the period and
      its number, so two labels are equal exactly when they name the same
      slot, day, month or year. */
  datatype Label = SlotLabel(slot: string) | PeriodLabel(unit: Period, index: int)

  /** The unit of a time-based group key. */
  function UnitOf(k: GroupKey): Period
    requires k != Batch
  {
    match k
    case Day => Days
    case Month => Months
    case Year => Years
  }

  /** The number of the day, month or year that day `day` falls in. */
  function PeriodOf(cal: Calendar, unit: Period, day: int): int
  {
    match unit
    case Days => day
    case Months => cal.monthOf(day)
    case Years => cal.YearOf(day)
  }

  /** Later days never fall in earlier periods. */
  lemma PeriodMonotone(cal: Calendar, unit: Period, d1: int, d2: int)
    requires cal.Monotone()
    requires d1 <= d2
    ensures PeriodOf(cal, unit, d1) <= PeriodOf(cal, unit, d2)
  {
    if unit == Years {
      var m1, m2 := cal.monthOf(d1), cal.monthOf(d2);
      assert m1 <= m2;
      assert m1 / 12 <= m2 / 12 by {
        assert 12 * (m1 / 12) <= m1 <= m2 < 12 * (m2 / 12) + 12;
      }
    }
  }

  /** The number of periods from `lo` to `hi` inclusive; none when `hi < lo`. */
  function Span(lo: int, hi: int): nat
  {
    if hi < lo then 0 else hi - lo + 1
  }

  /** One label per period from `lo` to `hi` inclusive, in order. */
  function Run(unit: Period, lo: int, hi: int): (r: seq<Label>)
    ensures |r| == Span(lo, hi)
  {
    seq(Span(lo, hi), i requires 0 <= i < Span(lo, hi) => PeriodLabel(unit, lo + i))
  }

  /** A run names each of its periods once, and names exactly the periods from
      `lo` to `hi`. */
  lemma RunMembers(unit: Period, lo: int, hi: int)
    ensures Seqs.Distinct(Run(unit, lo, hi))
    ensures forall u, n :: PeriodLabel(u, n) in Run(unit, lo, hi) <==> u == unit && lo <= n <= hi
    ensures forall s :: SlotLabel(s) !in Run(unit, lo, hi)
  {
    var r := Run(unit, lo, hi);
    forall u, n | u == unit && lo <= n <= hi
      ensures PeriodLabel(u, n) in r
    {
      assert r[n - lo] == PeriodLabel(u, n);
    }
  }
}

=== FILE: pie_chart.dfy ===
/** The pie chart ("Overall Gear Quality"): the records inspected within a range
    of whole days, how many of them are OK and how many defective, and the
    defective share as a whole percentage. */
module PieChart {
  import opened Records
  import Seqs
  import opened Rounding

  /** Lines 38-44: after `start - 1ms` and before `end + 1ms`, where `start` is
      the first and `end` the last millisecond of the range; that is, the
      records whose day lies in the range. */
  function Selects(startDay: int, endDay: int): (sel: Gear -> bool)
    ensures forall g: Gear :: sel(g) <==> startDay <= DayOf(g.inspectedAt) <= endDay
  {
    DayWindows(startDay, endDay);
    (g: Gear) => g.inspectedAt > StartOfDay(startDay) - 1 && g.inspectedAt < EndOfDay(endDay) + 1
  }

  /** `filteredData`. */
  function FilteredData(data: seq<Gear>, startDay: int, endDay: int): (r: seq<Gear>)
    ensures |r| <= |data|
  {
    Seqs.Filter(data, Selects(startDay, endDay))
  }

  /** The selection keeps exactly the records whose day lies in the range, in
      their original order. */
  lemma Selection(data: seq<Gear>, startDay: int, endDay: int)
    ensures Seqs.IsSubsequence(FilteredData(data, startDay, endDay), data)
    ensures forall g :: g in FilteredData(data, startDay, endDay) <==>
                        g in data && startDay <= DayOf(g.inspectedAt) <= endDay
  {
    Seqs.FilterIsSubsequence(data, Selects(startDay, endDay));
    Seqs.FilterMembers(data, Selects(startDay, endDay));
  }

  /** The totals of lines 48-51. */
  datatype Summary = Summary(totalProcessed: nat, totalDefective: nat, totalOk: int, defectivePercent: int)

  /** Line 51: `Math.round(defective / processed * 100)`, 0 when nothing is
      selected. Math.round rounds halves up. */
  function DefectivePercent(defective: nat, processed: nat): (pct: int)
    ensures processed == 0 ==> pct == 0
    ensures processed > 0 ==> -(processed as int) < 2 * processed * pct - 200 * defective <= processed
    ensures defective <= processed ==> 0 <= pct <= 100
  {
    if processed == 0 then 0
    else if defective <= processed then
      RoundedAtMost(100 * defective, processed, 100);
      RoundHalfUp(100 * defective, processed)
    else RoundHalfUp(100 * defective, processed)
  }

  function IsNotFail(g: Gear): bool { g.status != FAIL }

  /** Lines 48-51. */
  function Summarize(data: seq<Gear>, startDay: int, endDay: int): (sm: Summary)
    ensures sm.totalProcessed == |FilteredData(data, startDay, endDay)|
    ensures sm.totalDefective <= sm.totalProcessed
    ensures sm.defectivePercent == DefectivePercent(sm.totalDefective, sm.totalProcessed)
    ensures 0 <= sm.defectivePercent <= 100
  {
    var filtered := FilteredData(data, startDay, endDay);
    var processed := |filtered|;
    var defective := |Seqs.Filter(filtered, IsFail)|;
    Summary(processed, defective, processed - defective, DefectivePercent(defective, processed))
  }

  /** OK and defective add up to the selection; the defective count is the FAIL
      records of the selection, and the OK count is every other record,
      whatever its status. */
  lemma SummaryCounts(data: seq<Gear>, startDay: int, endDay: int)
    ensures var sm := Summarize(data, startDay, endDay);
            var filtered := FilteredData(data, startDay, endDay);
            && sm.totalOk + sm.totalDefective == sm.totalProcessed
            && sm.totalDefective == Seqs.Count(filtered, IsFail)
            && sm.totalOk == Seqs.Count(filtered, IsNotFail)
            && sm.totalOk >= 0
  {
    var filtered := FilteredData(data, startDay, endDay);
    Seqs.CountComplement(filtered, IsFail, IsNotFail);
  }

  /** The percentage is 100 exactly when OK records are at most one in 200 of
      a non-empty selection: "every record is FAIL" is enough, not necessary. */
  lemma FullPercent(defective: nat, processed: nat)
    requires defective <= processed
    ensures DefectivePercent(defective, processed) == 100
        <==> processed > 0 && 200 * (processed - defective) <= processed
    ensures 0 < processed == defective ==> DefectivePercent(defective, processed) == 100
  {
    var pct := DefectivePercent(defective, processed);
    if processed > 0 && 200 * (processed - defective) <= processed {
      CancelFactor(2 * processed, pct, 99);
    }
  }

  /** 199 defective out of 200 already rounds to 100%. */
  lemma FullWithAnOkRecord()
    ensures DefectivePercent(199, 200) == 100
  {
  }

  /** The percentage is 0 exactly when nothing is selected or defective records
      are under one in 200. */
  lemma ZeroPercent(defective: nat, processed: nat)
    requires defective <= processed
    ensures DefectivePercent(defective, processed) == 0 <==> processed == 0 || 200 * defective < processed
  {
    var pct := DefectivePercent(defective, processed);
    if processed > 0 && 200 * defective < processed {
      CancelFactor(2 * processed, 1, pct);
    }
  }

  /** A slice of the pie. */
  datatype Slice = Slice(name: string, value: int)

  /** Lines 53-56: `pieData`. */
  function PieData(sm: Summary): (slices: seq<Slice>)
    ensures |slices| == 2
    ensures slices[0].name == "OK" && slices[1].name == "Defective"
  {
    [Slice("OK", sm.totalOk), Slice("Defective", sm.totalDefective)]
  }

  /** The two slices of the chart split the selection between them. */
  lemma PieSplitsSelection(data: seq<Gear>, startDay: int, endDay: int)
    ensures var slices := PieData(Summarize(data, startDay, endDay));
            && slices[0].value + slices[1].value == |FilteredData(data, startDay, endDay)|
            && slices[1].value == Seqs.Count(FilteredData(data, startDay, endDay), IsFail)
  {
    SummaryCounts(data, startDay, endDay);
  }

  /** An end before the start selects nothing, and the percentage is 0. */
  lemma InvertedRange(data: seq<Gear>, startDay: int, endDay: int)
    requires endDay < startDay
    ensures FilteredData(data, startDay, endDay) == []
    ensures Summarize(data, startDay, endDay).defectivePercent == 0
  {
    Seqs.CountNone(data, Selects(startDay, endDay));
  }
}

=== FILE: rate_chart.dfy ===
/** The rate chart ("Defective Rate & Count Over Time"): buckets for the days,
    months or years of the range, each counting the records that fall in it and
    the FAIL records among them, and the defective rate derived from the two.
    Unlike the count chart it has no batch-slot buckets, never adds a bucket
    while folding, and counts every status toward `total`. */
module RateChart {
  import opened Records
  import opened Granularity
  import Seqs
  import opened Rounding

  /** A bucket `{ name, rate, total, fail }`; `rate` is in hundredths of a percent. */
  datatype RateBucket = RateBucket(name: Label, rate: int, total: nat, fail: nat)

  function Names(t: seq<RateBucket>): (r: seq<Label>)
    ensures |r| == |t|
    ensures forall i :: 0 <= i < |t| ==> r[i] == t[i].name
  {
    seq(|t|, i requires 0 <= i < |t| => t[i].name)
  }

  /** One empty bucket per label, in the labels' order. */
  function ZeroBuckets(labels: seq<Label>): (t: seq<RateBucket>)
    ensures Names(t) == labels
    ensures forall i :: 0 <= i < |t| ==> t[i].rate == 0 && t[i].total == 0 && t[i].fail == 0
  {
    seq(|labels|, i requires 0 <= i < |labels| => RateBucket(labels[i], 0, 0, 0))
  }

  /** The labels `generateRateBuckets` seeds: none in batch mode, else one per
      day, month or year from the start's through the end's. */
  function SeedLabels(cal: Calendar, k: GroupKey, startDay: int, endDay: int): seq<Label>
  {
    if k == Batch then []
    else
      var unit := UnitOf(k);
      Run(unit, PeriodOf(cal, unit, startDay), PeriodOf(cal, unit, endDay))
  }

  /** `generateRateBuckets`. Its loop condition tests "day", "month" and "year"
      in turn, so with the key "batch" it never runs; otherwise `current` steps
      one day, month or year at a time (here: its period number) until it
      passes the end's. */
  method GenerateRateBuckets(cal: Calendar, startDay: int, endDay: int, k: GroupKey)
    returns (buckets: seq<RateBucket>)
    ensures buckets == ZeroBuckets(SeedLabels(cal, k, startDay, endDay))
  {
    buckets := [];
    var unit := if k == Batch then Days else UnitOf(k);
    var first := PeriodOf(cal, unit, startDay);
    var last := PeriodOf(cal, unit, endDay);
    var current := first;
    while (k == Day || k == Month || k == Year) && current <= last
      invariant k == Batch ==> buckets == []
      invariant first <= current <= if first <= last then last + 1 else first
      invariant |buckets| == current - first
      invariant forall j :: 0 <= j < |buckets| ==> buckets[j] == RateBucket(PeriodLabel(unit, first + j), 0, 0, 0)
      decreases last - current
    {
      var lbl := PeriodLabel(unit, current);
      current := current + 1;
      buckets := buckets + [RateBucket(lbl, 0, 0, 0)];
    }
  }

  /** Line 95: `isBetween(startDate, endDate, "day", "[]")`, inclusive by day.
      The dayjs plugin accepts its two bounds in either order: a record is in
      range when it lies between the first millisecond of the earlier day and
      the last millisecond of the later one. */
  function InDays(g: Gear, startDay: int, endDay: int): (b: bool)
    ensures startDay <= endDay ==> (b <==> StartOfDay(startDay) <= g.inspectedAt <= EndOfDay(endDay))
    ensures endDay <= startDay ==> (b <==> StartOfDay(endDay) <= g.inspectedAt <= EndOfDay(startDay))
  {
    DayWindow(g.inspectedAt, startDay, endDay);
    DayWindow(g.inspectedAt, endDay, startDay);
    var d := DayOf(g.inspectedAt);
    (startDay <= d <= endDay) || (endDay <= d <= startDay)
  }

  /** The label a record is looked up under; in batch mode the key stays
      undefined and no bucket matches it. */
  function RecordLabel(cal: Calendar, k: GroupKey, g: Gear): (l: Option<Label>)
    ensures l.None? <==> k == Batch
    ensures l.Some? ==> l.value.PeriodLabel? && l.value.unit == UnitOf(k)
    ensures k == Day ==> l == Some(PeriodLabel(Days, DayOf(g.inspectedAt)))
  {
    if k == Batch then None
    else
      var unit := UnitOf(k);
      Some(PeriodLabel(unit, PeriodOf(cal, unit, DayOf(g.inspectedAt))))
  }

  /** The position of the bucket named `l`, if there is one. */
  function FindBucket(t: seq<RateBucket>, l: Label): (r: Option<nat>)
    ensures r.Some? ==> r.value < |t| && t[r.value].name == l
    ensures r.None? ==> l !in Names(t)
  {
    if t == [] then None
    else if t[0].name == l then Some(0)
    else
      match FindBucket(t[1..], l)
      case None => None
      case Some(j) => Some(j + 1)
  }

  /** Lines 107-110: one more record, and one more FAIL when its status is FAIL. */
  function CountRecord(b: RateBucket, status: string): (u: RateBucket)
    ensures u.name == b.name && u.rate == b.rate
    ensures u.total == b.total + 1
    ensures u.fail == b.fail + (if status == FAIL then 1 else 0)
    ensures b.fail <= b.total ==> u.fail <= u.total
  {
    b.(total := b.total + 1, fail := b.fail + if status == FAIL then 1 else 0)
  }

  /** The bucket a record is counted in, if any: it must be in the range and
      its label must name a seeded bucket. */
  function Target(t: seq<RateBucket>, cal: Calendar, k: GroupKey, startDay: int, endDay: int, g: Gear): (r: Option<nat>)
    ensures r.Some? ==> && r.value < |t|
                        && InDays(g, startDay, endDay)
                        && RecordLabel(cal, k, g) == Some(t[r.value].name)
    ensures r.None? <==> || !InDays(g, startDay, endDay)
                         || RecordLabel(cal, k, g).None?
                         || RecordLabel(cal, k, g).value !in Names(t)
  {
    if !InDays(g, startDay, endDay) then None
    else
      match RecordLabel(cal, k, g)
      case None => None
      case Some(l) => FindBucket(t, l)
  }

  /** The buckets after the records of `data` are counted in order. */
  function Fold(t: seq<RateBucket>, data: seq<Gear>, cal: Calendar, k: GroupKey, startDay: int, endDay: int)
    : (r: seq<RateBucket>)
    ensures |r| == |t|
  {
    if data == [] then t
    else
      var prev := Fold(t, data[..|data| - 1], cal, k, startDay, endDay);
      var g := data[|data| - 1];
      match Target(prev, cal, k, startDay, endDay, g)
      case None => prev
      case Some(i) => prev[i := CountRecord(prev[i], g.status)]
  }

  /** Lines 114-120: the defective rate as a percentage rounded to two
      decimals, counted in hundredths; 0 for an empty bucket. */
  function RateOf(total: nat, fail: nat): (r: int)
    ensures total == 0 ==> r == 0
    ensures total > 0 ==> -(total as int) < 2 * total * r - 20000 * fail <= total
    ensures fail <= total ==> 0 <= r <= 10000
  {
    if total == 0 then 0
    else if fail <= total then
      RoundedAtMost(10000 * fail, total, 10000);
      RoundHalfUp(10000 * fail, total)
    else RoundHalfUp(10000 * fail, total)
  }

  /** The rate map of lines 114-120: the same buckets in the same order, each
      with its rate recomputed from its counts. */
  function Rates(t: seq<RateBucket>): (r: seq<RateBucket>)
    ensures |r| == |t|
    ensures forall i :: 0 <= i < |t| ==>
              r[i] == t[i].(rate := RateOf(t[i].total, t[i].fail))
  {
    seq(|t|, i requires 0 <= i < |t| => t[i].(rate := RateOf(t[i].total, t[i].fail)))
  }

  /** What `chartData` returns: one point per seeded bucket, in seeding order. */
  function Points(cal: Calendar, data: seq<Gear>, startDay: int, endDay: int): (p: seq<RateBucket>)
    ensures Names(p) == SeedLabels(cal, GroupKeyOf(startDay, endDay), startDay, endDay)
  {
    var k := GroupKeyOf(startDay, endDay);
    var seed := ZeroBuckets(SeedLabels(cal, k, startDay, endDay));
    FoldKeepsNames(seed, data, cal, k, startDay, endDay);
    Rates(Fold(ZeroBuckets(SeedLabels(cal, k, startDay, endDay)), data, cal, k, startDay, endDay))
  }

  /** `chartData`: seed the buckets, count the records into them in one pass,
      then derive the rates. */
  method ChartData(cal: Calendar, data: seq<Gear>, startDay: int, endDay: int)
    returns (points: seq<RateBucket>)
    ensures points == Points(cal, data, startDay, endDay)
  {
    var k := GroupKeyOf(startDay, endDay);
    var buckets := GenerateRateBuckets(cal, startDay, endDay, k);
    ghost var seed := buckets;
    for i := 0 to |data|
      invariant buckets == Fold(seed, data[..i], cal, k, startDay, endDay)
    {
      var g := data[i];
      assert data[..i + 1][..i] == data[..i];
      if InDays(g, startDay, endDay) {
        var key := RecordLabel(cal, k, g);
        if key.Some? {
          var j := FindBucket(buckets, key.value);
          if j.Some? {
            var b := buckets[j.value];
            b := b.(total := b.total + 1);
            if g.status == FAIL {
              b := b.(fail := b.fail + 1);
            }
            buckets := buckets[j.value := b];
          }
        }
      }
    }
    assert data[..|data|] == data;
    points := Rates(buckets);
  }

  // ---------------------------------------------------------------------------
  // Properties

  function SumTotal(t: seq<RateBucket>): nat
  {
    if t == [] then 0 else SumTotal(t[..|t| - 1]) + t[|t| - 1].total
  }

  function SumFail(t: seq<RateBucket>): nat
  {
    if t == [] then 0 else SumFail(t[..|t| - 1]) + t[|t| - 1].fail
  }

  lemma {:induction false} SumsUpdate(t: seq<RateBucket>, i: nat, b: RateBucket)
    requires i < |t|
    ensures SumTotal(t[i := b]) == SumTotal(t) - t[i].total + b.total
    ensures SumFail(t[i := b]) == SumFail(t) - t[i].fail + b.fail
  {
    var n := |t| - 1;
    if i == n {
      assert t[i := b][..n] == t[..n];
    } else {
      assert t[i := b][..n] == t[..n][i := b];
      SumsUpdate(t[..n], i, b);
    }
  }

  lemma {:induction false} ZeroSums(t: seq<RateBucket>)
    requires forall i :: 0 <= i < |t| ==> t[i].total == 0 && t[i].fail == 0
    ensures SumTotal(t) == 0 && SumFail(t) == 0
  {
    if t != [] {
      ZeroSums(t[..|t| - 1]);
    }
  }

  /** Records the fold counts into a table named `names`, and whose status
      satisfies `failOnly` (FAIL) or any status (`failOnly` false). */
  function Lands(names: seq<Label>, cal: Calendar, k: GroupKey, startDay: int, endDay: int, failOnly: bool)
    : Gear -> bool
  {
    g => InDays(g, startDay, endDay) && RecordLabel(cal, k, g).Some? && RecordLabel(cal, k, g).value in names
         && (failOnly ==> g.status == FAIL)
  }

  /** Records in the range filed under label `l`, FAIL ones only when `failOnly`. */
  function LandsIn(l: Label, cal: Calendar, k: GroupKey, startDay: int, endDay: int, failOnly: bool)
    : Gear -> bool
  {
    g => InDays(g, startDay, endDay) && RecordLabel(cal, k, g) == Some(l) && (failOnly ==> g.status == FAIL)
  }

  /** The fold never adds, removes or reorders a bucket. */
  lemma {:induction false} FoldKeepsNames(t: seq<RateBucket>, data: seq<Gear>, cal: Calendar, k: GroupKey, startDay: int, endDay: int)
    ensures Names(Fold(t, data, cal, k, startDay, endDay)) == Names(t)
  {
    if data != [] {
      FoldKeepsNames(t, data[..|data| - 1], cal, k, startDay, endDay);
    }
  }

  /** A record outside the range, or whose label names no bucket, is dropped:
      the buckets stay exactly as they were. */
  lemma RecordDropped(t: seq<RateBucket>, data: seq<Gear>, g: Gear, cal: Calendar, k: GroupKey, startDay: int, endDay: int)
    requires var prev := Fold(t, data, cal, k, startDay, endDay);
             !InDays(g, startDay, endDay) || RecordLabel(cal, k, g).None? || RecordLabel(cal, k, g).value !in Names(prev)
    ensures Fold(t, data + [g], cal, k, startDay, endDay) == Fold(t, data, cal, k, startDay, endDay)
  {
    assert (data + [g])[..|data|] == data;
  }

  /** In every bucket `fail` never exceeds `total`. */
  lemma {:induction false} FoldFailWithinTotal(t: seq<RateBucket>, data: seq<Gear>, cal: Calendar, k: GroupKey, startDay: int, endDay: int)
    requires forall i :: 0 <= i < |t| ==> t[i].fail <= t[i].total
    ensures forall i :: 0 <= i < |Fold(t, data, cal, k, startDay, endDay)| ==>
              Fold(t, data, cal, k, startDay, endDay)[i].fail <= Fold(t, data, cal, k, startDay, endDay)[i].total
  {
    if data != [] {
      FoldFailWithinTotal(t, data[..|data| - 1], cal, k, startDay, endDay);
    }
  }

  /** The totals grow by exactly the records counted into a seeded bucket, and
      the FAIL counts by exactly the FAIL records among them. */
  lemma {:induction false} FoldSums(t: seq<RateBucket>, data: seq<Gear>, cal: Calendar, k: GroupKey, startDay: int, endDay: int)
    ensures SumTotal(Fold(t, data, cal, k, startDay, endDay))
         == SumTotal(t) + Seqs.Count(data, Lands(Names(t), cal, k, startDay, endDay, false))
    ensures SumFail(Fold(t, data, cal, k, startDay, endDay))
         == SumFail(t) + Seqs.Count(data, Lands(Names(t), cal, k, startDay, endDay, true))
  {
    if data != [] {
      var n := |data| - 1;
      var prev := Fold(t, data[..n], cal, k, startDay, endDay);
      FoldSums(t, data[..n], cal, k, startDay, endDay);
      FoldKeepsNames(t, data[..n], cal, k, startDay, endDay);
      match Target(prev, cal, k, startDay, endDay, data[n])
      case None =>
      case Some(i) =>
        SumsUpdate(prev, i, CountRecord(prev[i], data[n].status));
    }
  }

  /** With distinct names, each bucket ends with its starting counts plus
      exactly the in-range records filed under its name (`total`) and the FAIL
      ones among them (`fail`). */
  lemma {:induction false} FoldBucketCounts(t: seq<RateBucket>, data: seq<Gear>, cal: Calendar, k: GroupKey, startDay: int, endDay: int, i: nat)
    requires Seqs.Distinct(Names(t))
    requires i < |t|
    ensures Fold(t, data, cal, k, startDay, endDay)[i].total
         == t[i].total + Seqs.Count(data, LandsIn(t[i].name, cal, k, startDay, endDay, false))
    ensures Fold(t, data, cal, k, startDay, endDay)[i].fail
         == t[i].fail + Seqs.Count(data, LandsIn(t[i].name, cal, k, startDay, endDay, true))
  {
    if data != [] {
      var n := |data| - 1;
      var prev := Fold(t, data[..n], cal, k, startDay, endDay);
      FoldBucketCounts(t, data[..n], cal, k, startDay, endDay, i);
      FoldKeepsNames(t, data[..n], cal, k, startDay, endDay);
      assert Names(prev)[i] == Names(t)[i];
      match Target(prev, cal, k, startDay, endDay, data[n])
      case None =>
        if InDays(data[n], startDay, endDay) && RecordLabel(cal, k, data[n]).Some? {
          assert RecordLabel(cal, k, data[n]).value != t[i].name;
        }
      case Some(j) =>
        assert prev[j].name == t[j].name by {
          assert Names(prev)[j] == Names(t)[j];
        }
    }
  }

  /** The seeded names are distinct. */
  lemma SeedsDistinct(cal: Calendar, k: GroupKey, startDay: int, endDay: int)
    ensures Seqs.Distinct(SeedLabels(cal, k, startDay, endDay))
  {
    if k != Batch {
      var unit := UnitOf(k);
      RunMembers(unit, PeriodOf(cal, unit, startDay), PeriodOf(cal, unit, endDay));
    }
  }

  /** Day, month and year modes seed one bucket per period from the start's
      through the end's, and none for an inverted range. */
  lemma SeedSizes(cal: Calendar, k: GroupKey, startDay: int, endDay: int)
    requires k != Batch
    ensures |SeedLabels(cal, k, startDay, endDay)|
         == Span(PeriodOf(cal, UnitOf(k), startDay), PeriodOf(cal, UnitOf(k), endDay))
    ensures k == Day ==> |SeedLabels(cal, k, startDay, endDay)| == if endDay < startDay then 0 else endDay - startDay + 1
  {
  }

  /** The chart has one point per seeded bucket, in seeding order; each point
      counts exactly the in-range records of its day, month or year, `fail`
      never exceeds `total`, and the rate lies between 0 and 100%. */
  lemma PointsShape(cal: Calendar, data: seq<Gear>, startDay: int, endDay: int)
    ensures var k := GroupKeyOf(startDay, endDay);
            var p := Points(cal, data, startDay, endDay);
            && Names(p) == SeedLabels(cal, k, startDay, endDay)
            && forall i :: 0 <= i < |p| ==>
                 && p[i].total == Seqs.Count(data, LandsIn(p[i].name, cal, k, startDay, endDay, false))
                 && p[i].fail == Seqs.Count(data, LandsIn(p[i].name, cal, k, startDay, endDay, true))
                 && p[i].fail <= p[i].total
                 && 0 <= p[i].rate <= 10000
                 && (p[i].total == 0 ==> p[i].rate == 0)
  {
    var k := GroupKeyOf(startDay, endDay);
    var seed := ZeroBuckets(SeedLabels(cal, k, startDay, endDay));
    var folded := Fold(seed, data, cal, k, startDay, endDay);
    FoldKeepsNames(seed, data, cal, k, startDay, endDay);
    FoldFailWithinTotal(seed, data, cal, k, startDay, endDay);
    SeedsDistinct(cal, k, startDay, endDay);
    forall i | 0 <= i < |folded|
      ensures folded[i].total == Seqs.Count(data, LandsIn(folded[i].name, cal, k, startDay, endDay, false))
      ensures folded[i].fail == Seqs.Count(data, LandsIn(folded[i].name, cal, k, startDay, endDay, true))
    {
      assert Names(folded)[i] == Names(seed)[i];
      FoldBucketCounts(seed, data, cal, k, startDay, endDay, i);
    }
  }

  /** A single-day range, which selects batch mode, gives an empty chart: no
      bucket is seeded and every record is dropped. So does an inverted range. */
  lemma EmptyRanges(cal: Calendar, data: seq<Gear>, startDay: int, endDay: int)
    requires endDay <= startDay
    ensures Points(cal, data, startDay, endDay) == []
  {
    var k := GroupKeyOf(startDay, endDay);
    FoldKeepsNames(ZeroBuckets(SeedLabels(cal, k, startDay, endDay)), data, cal, k, startDay, endDay);
  }

  /** For a forward range of more than one day every in-range record has a
      seeded bucket (the calendar never puts a later day in an earlier month),
      so the totals add up to the number of in-range records and the FAIL
      counts to the number of in-range FAIL records. */
  lemma TotalsCountEveryRecordInRange(cal: Calendar, data: seq<Gear>, startDay: int, endDay: int)
    requires cal.Monotone()
    requires startDay < endDay
    ensures var k := GroupKeyOf(startDay, endDay);
            var folded := Fold(ZeroBuckets(SeedLabels(cal, k, startDay, endDay)), data, cal, k, startDay, endDay);
            && SumTotal(folded) == Seqs.Count(data, InRangeWith(startDay, endDay, false))
            && SumFail(folded) == Seqs.Count(data, InRangeWith(startDay, endDay, true))
  {
    var k := GroupKeyOf(startDay, endDay);
    var names := SeedLabels(cal, k, startDay, endDay);
    var seed := ZeroBuckets(names);
    ZeroSums(seed);
    FoldSums(seed, data, cal, k, startDay, endDay);
    var unit := UnitOf(k);
    RunMembers(unit, PeriodOf(cal, unit, startDay), PeriodOf(cal, unit, endDay));
    forall g: Gear
      ensures Lands(names, cal, k, startDay, endDay, false)(g) == InRangeWith(startDay, endDay, false)(g)
      ensures Lands(names, cal, k, startDay, endDay, true)(g) == InRangeWith(startDay, endDay, true)(g)
    {
      if InDays(g, startDay, endDay) {
        PeriodMonotone(cal, unit, startDay, DayOf(g.inspectedAt));
        PeriodMonotone(cal, unit, DayOf(g.inspectedAt), endDay);
      }
    }
    Seqs.CountExt(data, Lands(names, cal, k, startDay, endDay, false), InRangeWith(startDay, endDay, false));
    Seqs.CountExt(data, Lands(names, cal, k, startDay, endDay, true), InRangeWith(startDay, endDay, true));
  }

  /** In-range records, FAIL ones only when `failOnly`. */
  function InRangeWith(startDay: int, endDay: int, failOnly: bool): Gear -> bool
  {
    g => InDays(g, startDay, endDay) && (failOnly ==> g.status == FAIL)
  }
}

=== FILE: records.dfy ===
/** Inspection records as the backend delivers them, and the clock and calendar
    the dashboard reads their timestamps with. */
module Records {

  datatype Option<+T> = None | Some(value: T)

  const PASS: string := "PASS"
  const FAIL: string := "FAIL"

  /** One inspection record, reduced to the fields the aggregations read.
      `status` is `Status`, `inspectedAt` is `inspection_date` in milliseconds on
      the local clock, `batchTime` is `batch_time`, `batchId` is `batch_id`, and
      `moduleName` is `module` (None when the field is missing or null). */
  datatype Gear = Gear(
    status: string,
    inspectedAt: int,
    batchTime: Option<string>,
    batchId: string,
    moduleName: Option<string>)

  /** The record's status is "FAIL". */
  function IsFail(g: Gear): bool { g.status == FAIL }

  /** The record's status is "PASS". */
  function IsPass(g: Gear): bool { g.status == PASS }

  const MsPerDay: int := 86_400_000

  /** The calendar day (days since the epoch, on the local clock) an instant falls in. */
  function DayOf(t: int): int
  {
    t / MsPerDay
  }

  /** `startOf("day")`: the first millisecond of a day. */
  function StartOfDay(day: int): int
  {
    day * MsPerDay
  }

  /** `endOf("day")`: the last millisecond of a day. */
  function EndOfDay(day: int): int
  {
    day * MsPerDay + MsPerDay - 1
  }

  /** An instant lies between the start of day `s` and the end of day `e`
      exactly when its day lies between `s` and `e`. */
  lemma DayWindow(t: int, s: int, e: int)
    ensures StartOfDay(s) <= t <= EndOfDay(e) <==> s <= DayOf(t) <= e
  {
    var d := DayOf(t);
    assert StartOfDay(d) <= t <= EndOfDay(d);
    assert s <= d ==> StartOfDay(s) <= StartOfDay(d);
    assert d <= e ==> EndOfDay(d) <= EndOfDay(e);
    assert d < s ==> EndOfDay(d) < StartOfDay(s);
    assert e < d ==> EndOfDay(e) < StartOfDay(d);
  }

  /** `DayWindow` for every instant at once. */
  lemma DayWindows(s: int, e: int)
    ensures forall t :: StartOfDay(s) <= t <= EndOfDay(e) <==> s <= DayOf(t) <= e
  {
    forall t
      ensures StartOfDay(s) <= t <= EndOfDay(e) <==> s <= DayOf(t) <= e
    {
      DayWindow(t, s, e);
    }
  }

  /** The local calendar, reduced to what the charts read from it: the month a
      day falls in, numbered 12 * year + (month - 1). */
  datatype Calendar = Calendar(monthOf: int -> int)
  {
    /** The calendar year a day falls in. */
    function YearOf(day: int): int
    {
      monthOf(day) / 12
    }

    /** Later days never fall in earlier months, as in every real calendar. */
    ghost predicate Monotone()
    {
      forall d1, d2 :: d1 <= d2 ==> monthOf(d1) <= monthOf(d2)
    }
  }
}

=== FILE: rounding.dfy ===
/** Rounding a non-negative ratio to the nearest whole number, halves rounded
    up, as `Math.round` and `toFixed` do for non-negative values (taken here on
    the exact ratio). */
module Rounding {

  /** The whole number nearest to `a / b`; a half rounds up. */
  function RoundHalfUp(a: nat, b: nat): (q: nat)
    requires b > 0
    ensures 2 * b * q <= 2 * a + b < 2 * b * q + 2 * b
  {
    (2 * a + b) / (2 * b)
  }

  /** A ratio of at most `m` rounds to at most `m`. */
  lemma RoundedAtMost(a: nat, b: nat, m: int)
    requires b > 0
    requires a <= b * m
    ensures RoundHalfUp(a, b) <= m
  {
    var q := RoundHalfUp(a, b);
    CancelFactor(2 * b, m + 1, q);
  }

  /** A positive factor can be cancelled from a strict inequality. */
  lemma CancelFactor(c: int, a: int, b: int)
    requires c > 0
    requires c * a > c * b
    ensures a > b
  {
  }
}

=== FILE: seqs.dfy ===
/** Sequence helpers the aggregations are built from: counting, JavaScript's
    `Array.prototype.filter`, and the de-duplication a `Set` performs. */
module Seqs {

  /** Number of elements of `s` that satisfy `p`. */
  function Count<T>(s: seq<T>, p: T -> bool): (n: nat)
    ensures n <= |s|
  {
    if s == [] then 0
    else Count(s[..|s| - 1], p) + (if p(s[|s| - 1]) then 1 else 0)
  }

  /** Counting with two predicates that agree everywhere gives the same number. */
  lemma {:induction false} CountExt<T>(s: seq<T>, p: T -> bool, q: T -> bool)
    requires forall x :: p(x) == q(x)
    ensures Count(s, p) == Count(s, q)
  {
    if s != [] {
      CountExt(s[..|s| - 1], p, q);
    }
  }

  /** Two predicates that never hold together count at most |s| elements between them. */
  lemma {:induction false} CountDisjoint<T>(s: seq<T>, p: T -> bool, q: T -> bool)
    requires forall x :: !(p(x) && q(x))
    ensures Count(s, p) + Count(s, q) <= |s|
  {
    if s != [] {
      CountDisjoint(s[..|s| - 1], p, q);
    }
  }

  /** A predicate and its negation split `s` exactly. */
  lemma {:induction false} CountComplement<T>(s: seq<T>, p: T -> bool, q: T -> bool)
    requires forall x :: q(x) == !p(x)
    ensures Count(s, p) + Count(s, q) == |s|
  {
    if s != [] {
      CountComplement(s[..|s| - 1], p, q);
    }
  }

  /** A predicate that holds nowhere counts nothing. */
  lemma {:induction false} CountNone<T>(s: seq<T>, p: T -> bool)
    requires forall i :: 0 <= i < |s| ==> !p(s[i])
    ensures Count(s, p) == 0
  {
    if s != [] {
      CountNone(s[..|s| - 1], p);
    }
  }

  /** The elements of `s` that satisfy `p`, in their original order. */
  function Filter<T>(s: seq<T>, p: T -> bool): (r: seq<T>)
    ensures |r| == Count(s, p)
    ensures forall i :: 0 <= i < |r| ==> p(r[i])
  {
    if s == [] then []
    else
      var r := Filter(s[..|s| - 1], p);
      if p(s[|s| - 1]) then r + [s[|s| - 1]] else r
  }

  /** `idx` lists, in strictly increasing order, positions of `b` that spell out `a`. */
  ghost predicate Embedding<T>(idx: seq<int>, a: seq<T>, b: seq<T>)
  {
    && |idx| == |a|
    && (forall i :: 0 <= i < |idx| ==> 0 <= idx[i] < |b| && b[idx[i]] == a[i])
    && (forall i, j :: 0 <= i < j < |idx| ==> idx[i] < idx[j])
  }

  /** `a` is an order-preserving subsequence of `b`. */
  ghost predicate IsSubsequence<T>(a: seq<T>, b: seq<T>)
  {
    exists idx :: Embedding(idx, a, b)
  }

  /** The positions `Filter` keeps, which witness that it returns a subsequence. */
  lemma {:induction false} FilterEmbedding<T>(s: seq<T>, p: T -> bool) returns (idx: seq<int>)
    ensures Embedding(idx, Filter(s, p), s)
    ensures forall i :: 0 <= i < |s| && p(s[i]) ==> i in idx
  {
    if s == [] {
      idx := [];
    } else {
      var n := |s| - 1;
      var prev := FilterEmbedding(s[..n], p);
      if p(s[n]) {
        idx := prev + [n];
      } else {
        idx := prev;
      }
    }
  }

  lemma FilterIsSubsequence<T>(s: seq<T>, p: T -> bool)
    ensures IsSubsequence(Filter(s, p), s)
  {
    var idx := FilterEmbedding(s, p);
  }

  /** `Filter` keeps exactly the elements that satisfy `p`. */
  lemma {:induction false} FilterMembers<T>(s: seq<T>, p: T -> bool)
    ensures forall x :: x in Filter(s, p) <==> x in s && p(x)
  {
    if s != [] {
      var n := |s| - 1;
      FilterMembers(s[..n], p);
      assert s == s[..n] + [s[n]];
    }
  }

  /** Filtering with predicates that agree everywhere gives the same result. */
  lemma {:induction false} FilterExt<T>(s: seq<T>, p: T -> bool, q: T -> bool)
    requires forall x :: p(x) == q(x)
    ensures Filter(s, p) == Filter(s, q)
  {
    if s != [] {
      FilterExt(s[..|s| - 1], p, q);
    }
  }

  /** A predicate that holds of every element keeps the whole sequence. */
  lemma {:induction false} FilterAll<T>(s: seq<T>, p: T -> bool)
    requires forall i :: 0 <= i < |s| ==> p(s[i])
    ensures Filter(s, p) == s
  {
    if s != [] {
      var n := |s| - 1;
      FilterAll(s[..n], p);
      assert s == s[..n] + [s[n]];
    }
  }

  /** Filtering twice is filtering once with the conjunction. */
  lemma {:induction false} FilterTwice<T>(s: seq<T>, p: T -> bool, q: T -> bool, both: T -> bool)
    requires forall x :: both(x) == (p(x) && q(x))
    ensures Filter(Filter(s, p), q) == Filter(s, both)
  {
    if s != [] {
      var n := |s| - 1;
      FilterTwice(s[..n], p, q, both);
      var r := Filter(s[..n], p);
      if p(s[n]) {
        assert (r + [s[n]])[..|r|] == r;
      }
    }
  }

  predicate Distinct<T(==)>(s: seq<T>)
  {
    forall i, j :: 0 <= i < j < |s| ==> s[i] != s[j]
  }

  /** The elements of `s` without repetitions, each at its first occurrence:
      what spreading a JavaScript `Set` built from `s` yields. */
  function Dedup<T(==)>(s: seq<T>): (r: seq<T>)
    ensures Distinct(r)
    ensures forall i :: 0 <= i < |r| ==> r[i] in s
    ensures forall i :: 0 <= i < |s| ==> s[i] in r
  {
    if s == [] then []
    else
      var r := Dedup(s[..|s| - 1]);
      assert forall i :: 0 <= i < |s| - 1 ==> s[i] == s[..|s| - 1][i];
      if s[|s| - 1] in r then r else r + [s[|s| - 1]]
  }

  /** The position of the first occurrence of `x` in `s`. */
  function FirstIndex<T(==)>(s: seq<T>, x: T): (r: nat)
    requires x in s
    ensures r < |s| && s[r] == x
    ensures x !in s[..r]
  {
    if s[0] == x then 0
    else
      var r := FirstIndex(s[1..], x);
      assert s[..r + 1] == [s[0]] + s[1..][..r];
      r + 1
  }

  /** An occurrence with no earlier one is the first occurrence. */
  lemma FirstIndexAt<T>(s: seq<T>, i: nat)
    requires i < |s|
    requires s[i] !in s[..i]
    ensures FirstIndex(s, s[i]) == i
  {
  }

  /** An element of a prefix has its first occurrence inside that prefix. */
  lemma FirstIndexPrefix<T>(s: seq<T>, n: nat, x: T)
    requires n <= |s|
    requires x in s[..n]
    ensures FirstIndex(s, x) == FirstIndex(s[..n], x)
  {
    var r := FirstIndex(s[..n], x);
    assert s[..n][..r] == s[..r];
    FirstIndexAt(s, r);
  }

  /** `Dedup` keeps the elements in the order of their first occurrences. */
  lemma {:induction false} DedupOrder<T>(s: seq<T>)
    ensures forall i, j :: 0 <= i < j < |Dedup(s)| ==> FirstIndex(s, Dedup(s)[i]) < FirstIndex(s, Dedup(s)[j])
  {
    if s != [] {
      var n := |s| - 1;
      var prev := Dedup(s[..n]);
      var r := Dedup(s);
      DedupOrder(s[..n]);
      forall i | 0 <= i < |prev|
        ensures FirstIndex(s, prev[i]) == FirstIndex(s[..n], prev[i])
        ensures FirstIndex(s, prev[i]) < n
      {
        FirstIndexPrefix(s, n, prev[i]);
      }
      if s[n] !in prev {
        assert r == prev + [s[n]];
        assert s[n] !in s[..n] by {
          forall i | 0 <= i < n
            ensures s[..n][i] != s[n]
          {
            assert s[..n][i] in prev;
          }
        }
        FirstIndexAt(s, n);
      }
    }
  }
}

=== FILE: tally.dfy ===
/** A PASS/FAIL tally keyed by label and kept in insertion order: the object the
    bar chart's `chartData` fold and the analysis page's `trendData` and
    `moduleData` reductions fill. Each of them looks the record's key up, adds a
    zero row for it at the end when it has none, and then bumps that row's FAIL
    or PASS counter by the record's status. */
module Tally {
  import opened Records
  import Seqs

  /** One group: its key and its two counters (the bar chart calls them
      `Non_defective` and `Defective`, the analysis page `PASS` and `FAIL`). */
  datatype Row<K> = Row(key: K, pass: nat, fail: nat)

  function Keys<K>(t: seq<Row<K>>): (ks: seq<K>)
    ensures |ks| == |t|
    ensures forall i :: 0 <= i < |t| ==> ks[i] == t[i].key
  {
    seq(|t|, i requires 0 <= i < |t| => t[i].key)
  }

  ghost predicate AllZero<K>(t: seq<Row<K>>)
  {
    forall i :: 0 <= i < |t| ==> t[i].pass == 0 && t[i].fail == 0
  }

  /** A table with one empty row per label, in the labels' order. */
  function ZeroRows<K>(labels: seq<K>): (t: seq<Row<K>>)
    ensures Keys(t) == labels
    ensures AllZero(t)
  {
    seq(|labels|, i requires 0 <= i < |labels| => Row(labels[i], 0, 0))
  }

  /** The position of the row keyed `k`, if there is one (the lookup `acc[key]`). */
  function Find<K(==)>(t: seq<Row<K>>, k: K): (r: Option<nat>)
    ensures r.Some? ==> r.value < |t| && t[r.value].key == k
    ensures r.None? ==> forall i :: 0 <= i < |t| ==> t[i].key != k
  {
    if t == [] then None
    else if t[0].key == k then Some(0)
    else
      match Find(t[1..], k)
      case None => None
      case Some(j) => Some(j + 1)
  }

  /** One record's status added to a row: FAIL bumps `fail`, PASS bumps `pass`,
      any other status neither. */
  function Tick<K>(r: Row<K>, status: string): (u: Row<K>)
    ensures u.key == r.key
    ensures u.pass == r.pass + (if status == PASS then 1 else 0)
    ensures u.fail == r.fail + (if status == FAIL then 1 else 0)
  {
    if status == FAIL then r.(fail := r.fail + 1)
    else if status == PASS then r.(pass := r.pass + 1)
    else r
  }

  /** The table after one record with key `k` and `status` is counted. */
  function Bump<K(==)>(t: seq<Row<K>>, k: K, status: string): (u: seq<Row<K>>)
    ensures Keys(u) == if k in Keys(t) then Keys(t) else Keys(t) + [k]
    ensures forall i :: 0 <= i < |t| && t[i].key != k ==> u[i] == t[i]
    ensures SumPass(u) == SumPass(t) + (if status == PASS then 1 else 0)
    ensures SumFail(u) == SumFail(t) + (if status == FAIL then 1 else 0)
  {
    match Find(t, k)
    case Some(i) =>
      SumsUpdate(t, i, Tick(t[i], status));
      t[i := Tick(t[i], status)]
    case None =>
      SumsAppend(t, Tick(Row(k, 0, 0), status));
      t + [Tick(Row(k, 0, 0), status)]
  }

  /** The table after the records of `data` are counted in order; `keyOf` gives
      a record's key, or None for a record the fold skips. */
  function Fold<K(==)>(t: seq<Row<K>>, data: seq<Gear>, keyOf: Gear -> Option<K>): (r: seq<Row<K>>)
    ensures |t| <= |r| <= |t| + |data|
  {
    if data == [] then t
    else
      var prev := Fold(t, data[..|data| - 1], keyOf);
      var g := data[|data| - 1];
      match keyOf(g)
      case None => prev
      case Some(k) => Bump(prev, k, g.status)
  }

  /** The fold, as the source runs it: one pass over the records, updating the
      table in place. */
  method Accumulate<K(==)>(seed: seq<Row<K>>, data: seq<Gear>, keyOf: Gear -> Option<K>)
    returns (t: seq<Row<K>>)
    ensures t == Fold(seed, data, keyOf)
  {
    t := seed;
    for i := 0 to |data|
      invariant t == Fold(seed, data[..i], keyOf)
    {
      var g := data[i];
      assert data[..i + 1][..i] == data[..i];
      match keyOf(g)
      case None =>
      case Some(k) =>
        var found := Find(t, k);
        var j: nat;
        if found.None? {
          t := t + [Row(k, 0, 0)];
          j := |t| - 1;
        } else {
          j := found.value;
        }
        t := t[j := Tick(t[j], g.status)];
    }
    assert data[..|data|] == data;
  }

  function SumPass<K>(t: seq<Row<K>>): nat
  {
    if t == [] then 0 else SumPass(t[..|t| - 1]) + t[|t| - 1].pass
  }

  function SumFail<K>(t: seq<Row<K>>): nat
  {
    if t == [] then 0 else SumFail(t[..|t| - 1]) + t[|t| - 1].fail
  }

  lemma {:induction false} SumsUpdate<K>(t: seq<Row<K>>, i: nat, r: Row<K>)
    requires i < |t|
    ensures SumPass(t[i := r]) == SumPass(t) - t[i].pass + r.pass
    ensures SumFail(t[i := r]) == SumFail(t) - t[i].fail + r.fail
  {
    var n := |t| - 1;
    if i == n {
      assert t[i := r][..n] == t[..n];
    } else {
      assert t[i := r][..n] == t[..n][i := r];
      SumsUpdate(t[..n], i, r);
    }
  }

  lemma SumsAppend<K>(t: seq<Row<K>>, r: Row<K>)
    ensures SumPass(t + [r]) == SumPass(t) + r.pass
    ensures SumFail(t + [r]) == SumFail(t) + r.fail
  {
    assert (t + [r])[..|t|] == t;
  }

  /** Records that `keyOf` files under some key and whose status is `status`. */
  function Counted<K>(keyOf: Gear -> Option<K>, status: string): Gear -> bool
  {
    g => keyOf(g).Some? && g.status == status
  }

  /** Records that `keyOf` files under key `k` and whose status is `status`. */
  function FiledUnder<K(==)>(keyOf: Gear -> Option<K>, k: K, status: string): Gear -> bool
  {
    g => keyOf(g) == Some(k) && g.status == status
  }

  /** Some record of `data` is filed under key `k`. */
  ghost predicate Mentions<K>(data: seq<Gear>, keyOf: Gear -> Option<K>, k: K)
  {
    exists j :: 0 <= j < |data| && keyOf(data[j]) == Some(k)
  }

  /** The fold keeps the rows it starts with, in place and in order, appends a
      row only for a key some counted record has, and never repeats a key. */
  lemma {:induction false} FoldKeys<K>(t: seq<Row<K>>, data: seq<Gear>, keyOf: Gear -> Option<K>)
    ensures |t| <= |Fold(t, data, keyOf)|
    ensures Keys(Fold(t, data, keyOf))[..|t|] == Keys(t)
    ensures Seqs.Distinct(Keys(t)) ==> Seqs.Distinct(Keys(Fold(t, data, keyOf)))
    ensures forall k :: k in Keys(Fold(t, data, keyOf)) <==> k in Keys(t) || Mentions(data, keyOf, k)
  {
    if data != [] {
      var n := |data| - 1;
      var prev := Fold(t, data[..n], keyOf);
      FoldKeys(t, data[..n], keyOf);
      forall k
        ensures Mentions(data, keyOf, k) <==> Mentions(data[..n], keyOf, k) || keyOf(data[n]) == Some(k)
      {
        MentionsLast(data, keyOf, k);
      }
      match keyOf(data[n])
      case None =>
      case Some(k) =>
    }
  }

  /** A key is mentioned by a non-empty list exactly when it is mentioned by
      all but the last record, or by the last. */
  lemma MentionsLast<K>(data: seq<Gear>, keyOf: Gear -> Option<K>, k: K)
    requires data != []
    ensures var n := |data| - 1;
            Mentions(data, keyOf, k) <==> Mentions(data[..n], keyOf, k) || keyOf(data[n]) == Some(k)
  {
    var n := |data| - 1;
    if Mentions(data, keyOf, k) {
      var j :| 0 <= j < |data| && keyOf(data[j]) == Some(k);
      if j < n {
        assert data[..n][j] == data[j];
      }
    }
    if Mentions(data[..n], keyOf, k) {
      var j :| 0 <= j < n && keyOf(data[..n][j]) == Some(k);
      assert data[j] == data[..n][j];
    }
  }

  /** The fold adds to the PASS total exactly the counted PASS records, and to
      the FAIL total exactly the counted FAIL records. */
  lemma {:induction false} FoldSums<K>(t: seq<Row<K>>, data: seq<Gear>, keyOf: Gear -> Option<K>)
    ensures SumPass(Fold(t, data, keyOf)) == SumPass(t) + Seqs.Count(data, Counted(keyOf, PASS))
    ensures SumFail(Fold(t, data, keyOf)) == SumFail(t) + Seqs.Count(data, Counted(keyOf, FAIL))
  {
    if data != [] {
      var n := |data| - 1;
      var g := data[n];
      var prev := Fold(t, data[..n], keyOf);
      FoldSums(t, data[..n], keyOf);
      assert Seqs.Count(data, Counted(keyOf, PASS))
          == Seqs.Count(data[..n], Counted(keyOf, PASS)) + (if keyOf(g).Some? && g.status == PASS then 1 else 0);
      assert Seqs.Count(data, Counted(keyOf, FAIL))
          == Seqs.Count(data[..n], Counted(keyOf, FAIL)) + (if keyOf(g).Some? && g.status == FAIL then 1 else 0);
      match keyOf(g)
      case None =>
        assert Fold(t, data, keyOf) == prev;
      case Some(k) =>
        assert Fold(t, data, keyOf) == Bump(prev, k, g.status);
    }
  }

  /** When every counted record's key already has a row, the fold adds no row. */
  lemma {:induction false} FoldNoNewKeys<K>(t: seq<Row<K>>, data: seq<Gear>, keyOf: Gear -> Option<K>)
    requires forall j :: 0 <= j < |data| && keyOf(data[j]).Some? ==> keyOf(data[j]).value in Keys(t)
    ensures Keys(Fold(t, data, keyOf)) == Keys(t)
  {
    if data != [] {
      var n := |data| - 1;
      FoldNoNewKeys(t, data[..n], keyOf);
      match keyOf(data[n])
      case None =>
      case Some(k) =>
    }
  }

  /** Every row ends with its starting counts plus exactly the records filed
      under its key: its `pass` counts those with status PASS and its `fail`
      those with status FAIL. */
  lemma {:induction false} FoldRowCounts<K>(t: seq<Row<K>>, data: seq<Gear>, keyOf: Gear -> Option<K>, i: nat)
    requires Seqs.Distinct(Keys(t))
    requires i < |Fold(t, data, keyOf)|
    ensures Fold(t, data, keyOf)[i].pass
         == (if i < |t| then t[i].pass else 0) + Seqs.Count(data, FiledUnder(keyOf, Fold(t, data, keyOf)[i].key, PASS))
    ensures Fold(t, data, keyOf)[i].fail
         == (if i < |t| then t[i].fail else 0) + Seqs.Count(data, FiledUnder(keyOf, Fold(t, data, keyOf)[i].key, FAIL))
  {
    if data != [] {
      var n := |data| - 1;
      var prev := Fold(t, data[..n], keyOf);
      var g := data[n];
      FoldKeys(t, data[..n], keyOf);
      match keyOf(g)
      case None =>
        FoldRowCounts(t, data[..n], keyOf, i);
      case Some(k) =>
        match Find(prev, k)
        case Some(j) =>
          FoldRowCounts(t, data[..n], keyOf, i);
          assert i != j ==> prev[i].key != k by {
            assert Keys(prev)[i] == prev[i].key && Keys(prev)[j] == prev[j].key;
          }
        case None =>
          if i < |prev| {
            FoldRowCounts(t, data[..n], keyOf, i);
          } else {
            assert k !in Keys(prev);
            assert !Mentions(data[..n], keyOf, k);
            Seqs.CountNone(data[..n], FiledUnder(keyOf, k, PASS));
            Seqs.CountNone(data[..n], FiledUnder(keyOf, k, FAIL));
          }
    }
  }
}
